=== FILE: README.md ===
# discordEasy core, modelled in Dafny

This project models the core of discordEasy, a Java client library for the
Discord bot gateway and REST API. It covers five parts:

- **Gateway client** (`DiscordClient`): the builder defaults, `build()`,
  the constructor's initial state, `start()`, `stop()`, `reconnect(failed)`
  and `updatePresence`.
- **Websocket handler** (`WebsocketHandler`): `onOpen`, `onMessage`,
  `onWebsocketPong` and `onClose`, plus the periodic heartbeat task that
  hello schedules. These are written as a step function over a shared
  session state.
- **Outbound gateway commands**: identify, resume, heartbeat and presence
  update, as JSON trees.
- **REST client** (`SimpleHttpClient`): requests and their headers,
  `toHttpRequest`, the client builder, `setExhausted`, `setBaseUrl`, and
  the rate-limit gate and preparation steps of `executeAndReturn`/`execute`.
- **Error handler** (`ErrHandler.handle`): rate-limit headers, 429 retries
  and API error reports.
- **Value types**: `Presence`, `Activity` and `DiscordIntent`.

Nothing is executed. The outside world appears only as inputs and outputs:

- Sockets, threads, executors, the HTTP stack and listeners become
  **effects**, recorded in order.
- An **exception** that escapes a callback or method is a `raised` flag.
  The state still keeps whatever was changed before the throw, as in Java.
- **Clock readings, the reply the network gives and parsed JSON frames**
  are parameters.

Modules, one per file:

| file | module | what it holds |
|---|---|---|
| `common.dfy` | `Common` | nullable references, and Java `int` wrap-around |
| `json.dfy` | `Json` | JSON trees with ordered object members; the `{op, d}` envelope |
| `intents.dfy` | `Intents` | intent codes, `getAll`, `getAllNonPrivileged`, the identify sum |
| `activity.dfy` | `Activities` | activities and their JSON |
| `presence.dfy` | `Presences` | statuses, presences and their JSON |
| `http.dfy` | `Http` | the REST client |
| `errhandler.dfy` | `ErrHandler` | `ErrHandler.handle` and the retry it schedules |
| `config.dfy` | `Config` | the client builder and its configuration |
| `payloads.dfy` | `Payloads` | the four outbound gateway commands |
| `gateway.dfy` | `Gateway` | session state; `start`, `stop`, `reconnect`, `updatePresence` |
| `handler.dfy` | `Handler` | the websocket callbacks, the heartbeat task, and runs of events |
| `properties.dfy` | `SessionProperties` | invariants and scenarios over steps and runs |

## Where the code departs from the gateway protocol's expectations

The model follows the code in each of these cases.

- **Last sequence number.** Discord's gateway protocol treats the sequence
  number as a cursor that only moves forward. The code overwrites it with
  every dispatch that carries one, including a smaller number
  (`SessionProperties.LastSeqOnlyFromDispatch`).
- **Abnormal close.** After a close it cannot resume, a gateway client is
  expected to open a fresh session and identify again. The code calls
  `stop()` instead. Nothing in the code ever clears the session id, the
  resume URL or the last sequence number (`SessionProperties.AbnormalCloseStops`,
  `Gateway.Reconnect`).
- **RESUMED and other opcodes.** RESUMED notifies no listener. Opcodes
  other than 0, 7, 9 and 10 are not forwarded to anyone.
- **Default base URL.** The default `SimpleHttpClient.Builder` base URL,
  the empty string, is not a valid URL. The base URL then stays null, and
  every `execute` on such a client fails (`Http.DefaultBuilderHasNoBase`,
  `Http.Execute`).

## Model

The source paths are relative to the repository root.

| member | source | states |
|---|---|---|
| Common.Wrap32 | src/main/java/net/towerester/deasy/gateway/WebsocketHandler.java:301 | the narrowed value agrees with the long value modulo 2^32 and equals it whenever it fits in an `int` |
| Common.Wrap64 | src/main/java/net/towerester/deasy/gateway/WebsocketHandler.java:301 | the `long` difference is a `long`, agrees with the exact difference modulo 2^64, and equals it whenever it fits |
| Common.Wrap32Unique | src/main/java/net/towerester/deasy/gateway/WebsocketHandler.java:301 | the narrowed `int` is the only `int` congruent to the value modulo 2^32 |
| Common.Wrap32OfWrap64 | src/main/java/net/towerester/deasy/gateway/WebsocketHandler.java:301 | narrowing the wrapped `long` difference to `int` gives the same `int` as narrowing the exact difference, so a 64-bit overflow never shows in the ping |
| Intents.CodeIsPower | src/main/java/net/towerester/deasy/gateway/entities/DiscordIntent.java:7 | every intent code is a single bit `1 << n` |
| Intents.CodesDisjoint | src/main/java/net/towerester/deasy/gateway/entities/DiscordIntent.java:7 | two different intents never share a bit |
| Intents.All | src/main/java/net/towerester/deasy/gateway/entities/DiscordIntent.java:21-23 | `getAll` lists 19 intents in declaration order, each exactly once, and every intent is listed |
| Intents.AllNonPrivileged | src/main/java/net/towerester/deasy/gateway/entities/DiscordIntent.java:27-30 | `getAllNonPrivileged` holds exactly the intents other than MESSAGE_CONTENT, GUILD_MEMBERS and GUILD_PRESENCES (16 of them), in declaration order |
| Intents.IntentsFieldIsMask | src/main/java/net/towerester/deasy/gateway/WebsocketHandler.java:66-71 | for a list without duplicates, the `int` sum identify sends equals the bitwise OR of the codes, whatever the list order, and lies in [0, 2^22) |
| Intents.DuplicatesCountTwice | src/main/java/net/towerester/deasy/gateway/WebsocketHandler.java:66-69 | the sum counts a repeated intent twice: GUILDS twice reads as GUILD_MEMBERS |
| Intents.AllIntentsField | src/main/java/net/towerester/deasy/gateway/WebsocketHandler.java:66-71 | all intents together give 0x31FFFF |
| Activities.TypeCode | src/main/java/net/towerester/deasy/gateway/entities/Activity.java:35 | activity type codes lie in 0..5 and are never 4 |
| Activities.TypeCodeRoundTrip | src/main/java/net/towerester/deasy/gateway/entities/Activity.java:35 | the type code determines the activity type |
| Activities.ToJson | src/main/java/net/towerester/deasy/gateway/entities/Activity.java:32-37 | the activity object has exactly the members `name` then `type`, holding the name and the type code |
| Activities.RoundTrip | src/main/java/net/towerester/deasy/gateway/entities/Activity.java:32-37 | reading the JSON back recovers the activity |
| Activities.ToJsonInjective | src/main/java/net/towerester/deasy/gateway/entities/Activity.java:32-37 | different activities give different JSON |
| Presences.StatusString | src/main/java/net/towerester/deasy/gateway/entities/Presence.java:56 | the status is written as one of online, offline, invisible, idle, dnd |
| Presences.StatusRoundTrip | src/main/java/net/towerester/deasy/gateway/entities/Presence.java:56 | the status string determines the status |
| Presences.NewPresence | src/main/java/net/towerester/deasy/gateway/entities/Presence.java:15-18 | a new presence is online with no activities |
| Presences.AddActivity | src/main/java/net/towerester/deasy/gateway/entities/Presence.java:34-36 | the activity is appended at the end; the earlier ones and the status are kept |
| Presences.SetStatus | src/main/java/net/towerester/deasy/gateway/entities/Presence.java:40-42 | only the status changes |
| Presences.ToJson | src/main/java/net/towerester/deasy/gateway/entities/Presence.java:46-60 | the block has the members since, activities, status, afk in that order; since is null, afk is false, and activities holds each activity's JSON in list order |
| Presences.RoundTrip | src/main/java/net/towerester/deasy/gateway/entities/Presence.java:46-60 | reading the block back recovers the presence |
| Json.Envelope | src/main/java/net/towerester/deasy/gateway/DiscordClient.java:260-262 | a command has exactly the members op then d, holding the opcode and the payload |
| Config.NewBuilder | src/main/java/net/towerester/deasy/gateway/DiscordClient.java:62-74 | builder defaults: no intents, listeners or activities; shard count 0; sharding, compression, insecure TLS and debug off; status online; no REST client |
| Config.DefaultHttp | src/main/java/net/towerester/deasy/gateway/DiscordClient.java:187-194 | the default REST client sends exactly the Authorization "Bot token" and User-Agent headers, and starts out not exhausted |
| Config.BaseUrlValid | src/main/java/net/towerester/deasy/Constants.java:6 | the REST base URL is accepted as a URL |
| Config.Build | src/main/java/net/towerester/deasy/gateway/DiscordClient.java:186-224 | the client carries every builder setting and the bootstrap values; it uses the given REST client, or the default one when none was given; afterwards the builder holds the REST client the client uses and is otherwise unchanged |
| Config.RebuildKeepsFirstToken | src/main/java/net/towerester/deasy/gateway/DiscordClient.java:186-195 | building twice from one builder, with the token changed in between, gives the second client the new token but the first client's REST client, which still authenticates with the old token |
| Config.BuildDefaultHttp | src/main/java/net/towerester/deasy/gateway/DiscordClient.java:187-194 | without its own REST client, a built client uses the versioned base URL, authenticates as a bot and sends the library's user agent |
| Payloads.Properties | src/main/java/net/towerester/deasy/gateway/WebsocketHandler.java:44-47 | identify properties: os is the operating system name; browser and device are "Discordium" |
| Payloads.ShardTotal | src/main/java/net/towerester/deasy/gateway/WebsocketHandler.java:52-62 | the shard total is 1 without sharding, the recommendation for shard count 0, and the shard count otherwise |
| Payloads.IdentifyPresence | src/main/java/net/towerester/deasy/gateway/WebsocketHandler.java:73-81 | identify's presence holds activities, status, since (null) and afk (false), in that order |
| Payloads.IdentifyPresenceMatches | src/main/java/net/towerester/deasy/gateway/WebsocketHandler.java:73-83 | identify's presence block has the same members and values as `Presence.toJson()`; only the order differs |
| Payloads.IdentifyData | src/main/java/net/towerester/deasy/gateway/WebsocketHandler.java:41-84 | identify's `d` holds token, properties, compress, shard `[0, total]`, intents and presence, in that order |
| Payloads.Identify | src/main/java/net/towerester/deasy/gateway/WebsocketHandler.java:37-93 | identify is opcode 2 around that `d` |
| Payloads.IdentifyIntentsAreMask | src/main/java/net/towerester/deasy/gateway/WebsocketHandler.java:66-71 | for a list without duplicates, identify announces exactly the OR of the intent codes |
| Payloads.IdentifyUnshardedIsSingle | src/main/java/net/towerester/deasy/gateway/WebsocketHandler.java:52-56 | without sharding, identify claims shard 0 of 1 whatever the shard count |
| Payloads.ResumeData | src/main/java/net/towerester/deasy/gateway/WebsocketHandler.java:110-113 | resume's `d` holds token, session_id (null when unknown) and seq, in that order |
| Payloads.Resume | src/main/java/net/towerester/deasy/gateway/WebsocketHandler.java:106-115 | resume is opcode 6 around that `d` |
| Payloads.ResumeInjective | src/main/java/net/towerester/deasy/gateway/WebsocketHandler.java:106-115 | a resume command determines its token, its session id (a missing one included) and its last sequence number |
| Payloads.Heartbeat | src/main/java/net/towerester/deasy/gateway/WebsocketHandler.java:176-183 | heartbeat is opcode 1; `d` is null exactly when the last sequence is 0, and is that sequence otherwise |
| Payloads.HeartbeatInjective | src/main/java/net/towerester/deasy/gateway/WebsocketHandler.java:176-183 | different last sequences give different heartbeats |
| Payloads.PresenceUpdate | src/main/java/net/towerester/deasy/gateway/DiscordClient.java:259-271 | presence update is opcode 3 around `Presence.toJson()` |
| Payloads.PresenceUpdateInjective | src/main/java/net/towerester/deasy/gateway/DiscordClient.java:259-271 | a presence update determines its presence |
| Payloads.CommandsDistinct | src/main/java/net/towerester/deasy/gateway/WebsocketHandler.java:39 | no two kinds of command can be equal |
| Http.EmptyUrlInvalid | src/main/java/net/towerester/deasy/utils/SimpleHttpClient.java:344-352 | the empty string is not a valid URL |
| Http.UpperCaseSchemeValid | src/main/java/net/towerester/deasy/utils/SimpleHttpClient.java:344-352 | a URL whose protocol is written in upper case is valid, and its scheme is one a request can use |
| Http.HttpSchemeIsValid | src/main/java/net/towerester/deasy/utils/SimpleHttpClient.java:129-131 | every URL a request can be built for passes the URL check |
| Http.NewRequest | src/main/java/net/towerester/deasy/utils/SimpleHttpClient.java:36-41 | a new request has the given URL and method, no headers and no body |
| Http.AddHeader | src/main/java/net/towerester/deasy/utils/SimpleHttpClient.java:98-100 | the name maps to the value, every other header is unchanged, and no other part of the request changes |
| Http.AddOrReplaceHeader | src/main/java/net/towerester/deasy/utils/SimpleHttpClient.java:106-112 | the same guarantees as AddHeader, on both branches |
| Http.AddOrReplaceIsAdd | src/main/java/net/towerester/deasy/utils/SimpleHttpClient.java:106-112 | the two branches of addOrReplaceHeader agree with addHeader |
| Http.ToHttpRequest | src/main/java/net/towerester/deasy/utils/SimpleHttpClient.java:129-146 | the request is built exactly when the URL's scheme is http or https (in any case) and the method is GET or DELETE or a body is present; GET and DELETE carry no body, every other method carries the request's body; method, URL and headers pass through |
| Http.ValidUrlNotSendable | src/main/java/net/towerester/deasy/utils/SimpleHttpClient.java:129-131 | an ftp URL passes the URL check, yet no request to it can be built |
| Http.NewClient | src/main/java/net/towerester/deasy/utils/SimpleHttpClient.java:224-234 | the base URL is kept exactly when it is valid; the client starts out not exhausted with reset delay 0 |
| Http.NewClientBuilder | src/main/java/net/towerester/deasy/utils/SimpleHttpClient.java:154-158 | builder defaults: empty base URL, no default headers, certificates checked |
| Http.AddDefaultHeader | src/main/java/net/towerester/deasy/utils/SimpleHttpClient.java:172-175 | the default header is stored and nothing else changes |
| Http.WithBaseUrl | src/main/java/net/towerester/deasy/utils/SimpleHttpClient.java:163-166 | the builder stores the base URL unchecked |
| Http.BuildClient | src/main/java/net/towerester/deasy/utils/SimpleHttpClient.java:186-217 | the built client keeps the base URL only when valid, and keeps the default headers |
| Http.DefaultBuilderHasNoBase | src/main/java/net/towerester/deasy/utils/SimpleHttpClient.java:154-158 | a client built with the builder's default base URL has no base URL |
| Http.SetExhausted | src/main/java/net/towerester/deasy/utils/SimpleHttpClient.java:245-251 | the flag is always stored; the reset delay only when the flag is raised |
| Http.SetBaseUrl | src/main/java/net/towerester/deasy/utils/SimpleHttpClient.java:260-264 | a valid URL replaces the base URL; an invalid one leaves it; nothing else changes |
| Http.WaitMillis | src/main/java/net/towerester/deasy/utils/SimpleHttpClient.java:311 | the wait is (reset + 1) seconds, in whole milliseconds; at the largest reset it wraps negative |
| Http.Prepare | src/main/java/net/towerester/deasy/utils/SimpleHttpClient.java:316-334 | the URL is prefixed by a non-empty base URL; default headers override same-named request headers; all other headers stay; a null base URL fails |
| Http.PrepareHeadersIdempotent | src/main/java/net/towerester/deasy/utils/SimpleHttpClient.java:320-324 | preparing twice leaves the headers as after once |
| Http.PrepareTwicePrefixesTwice | src/main/java/net/towerester/deasy/utils/SimpleHttpClient.java:316-318 | preparing twice puts the base URL in front twice |
| Http.Dispatch | src/main/java/net/towerester/deasy/utils/SimpleHttpClient.java:326-341 | a request goes out exactly when there is a base URL and the prepared request converts; the reply is returned only then |
| Http.Execute | src/main/java/net/towerester/deasy/utils/SimpleHttpClient.java:308-342 | an exhausted client waits (reset + 1) seconds and reopens its gate. A zero wait never returns; a negative wait fails and leaves everything unchanged. A client that is not exhausted does not wait |
| Http.ExecuteSendsPrepared | src/main/java/net/towerester/deasy/utils/SimpleHttpClient.java:325-337 | an open client with a base URL sends the prepared request and returns the reply |
| Http.ExecuteReopensGate | src/main/java/net/towerester/deasy/utils/SimpleHttpClient.java:310-314 | after one waited request, the next one does not wait |
| Http.ExecuteTwicePrefixesTwice | src/main/java/net/towerester/deasy/utils/SimpleHttpClient.java:326-328 | executing the same request object twice sends the base URL twice |
| ErrHandler.RateGate | src/main/java/net/towerester/deasy/utils/ErrHandler.java:21-31 | with the limit header present, a missing header fails and an empty bucket marks the client exhausted; otherwise handling goes on |
| ErrHandler.Handle | src/main/java/net/towerester/deasy/utils/ErrHandler.java:20-77 | the client changes only through an exhausted bucket; at most one retry is scheduled, and only for status 429 |
| ErrHandler.DepletedMarksExhausted | src/main/java/net/towerester/deasy/utils/ErrHandler.java:26-29 | an exhausted bucket sets the floored reset delay and ends handling with no retry and no report |
| ErrHandler.ExhaustedOnlyWhenDepleted | src/main/java/net/towerester/deasy/utils/ErrHandler.java:20-77 | without an exhausted bucket the client is unchanged |
| ErrHandler.LimitHeadersRequired | src/main/java/net/towerester/deasy/utils/ErrHandler.java:21-24 | the limit header without the remaining, reset-after or bucket header fails at once |
| ErrHandler.TooManyRequestsRetriesOnce | src/main/java/net/towerester/deasy/utils/ErrHandler.java:33-60 | when the rate-limit gate lets handling go on, a 429 reply with retry_after, message and global schedules exactly one retry of the same request after retry_after seconds |
| ErrHandler.TooManyRequestsWithoutDelay | src/main/java/net/towerester/deasy/utils/ErrHandler.java:33-34 | a 429 reply without retry_after schedules nothing |
| ErrHandler.ApiErrorOnlyReported | src/main/java/net/towerester/deasy/utils/ErrHandler.java:64-76 | when the rate-limit gate lets handling go on (no limit header, or all four headers with a positive remaining count), code and message outside 429 give exactly one error report, with no retry and no failure |
| ErrHandler.NullBodyRaises | src/main/java/net/towerester/deasy/utils/ErrHandler.java:33-64 | a null body fails unless the bucket is exhausted |
| ErrHandler.RunRetry | src/main/java/net/towerester/deasy/utils/ErrHandler.java:46-60 | the retry executes the request again and hands a readable reply back to the handler with the same request object |
| ErrHandler.RetryPrefixesTwice | src/main/java/net/towerester/deasy/utils/ErrHandler.java:53 | a retried request goes out with the base URL twice in front of its path |
| Gateway.NewSession | src/main/java/net/towerester/deasy/gateway/DiscordClient.java:211-224 | a new client: last sequence 0, ping 0, not reconnecting, no session, no socket, no threads |
| Gateway.GatewayAddress | src/main/java/net/towerester/deasy/gateway/DiscordClient.java:244 | the socket address is the gateway URL followed by the version and encoding query |
| Gateway.GatewayAddressCompressIff | src/main/java/net/towerester/deasy/gateway/DiscordClient.java:244 | the address ends in the zlib-stream query exactly when compression is on |
| Gateway.Start | src/main/java/net/towerester/deasy/gateway/DiscordClient.java:243-255 | start adds a keep-alive thread and then connects to the gateway address with a fresh handler; the session is unchanged |
| Gateway.Stop | src/main/java/net/towerester/deasy/gateway/DiscordClient.java:364-372 | stop sends close 1001 "Close" on an open or closing socket and none on a closed one; an open socket is left closing. It then interrupts the latest keep-alive thread and shuts down only the latest executor. It fails when a reference is null, and changes nothing else |
| Gateway.Reconnect | src/main/java/net/towerester/deasy/gateway/DiscordClient.java:345-360 | session fields are never cleared. Without failure the client is marked reconnecting and connects to the resume URL. When there is none it fails after closing: the old socket stays the client's and an open one is left closing. With failure it runs stop then start |
| Gateway.UpdatePresence | src/main/java/net/towerester/deasy/gateway/DiscordClient.java:259-271 | on an open socket, sends exactly one presence update and leaves the session as it was; with no socket, or one that is closing or closed, it fails and sends nothing |
| Handler.AsBoolean | src/main/java/net/towerester/deasy/gateway/WebsocketHandler.java:221 | a missing `d` fails; booleans read as themselves; numbers read as true when non-zero; text reads as true exactly when it trims to "true"; anything else reads as false |
| Handler.Hello | src/main/java/net/towerester/deasy/gateway/WebsocketHandler.java:166-209 | hello always adds a live executor and changes nothing else. The heartbeat starts, first, exactly when the period is positive. Identify is sent last when not reconnecting, and nothing is sent while reconnecting |
| Handler.OnMessage | src/main/java/net/towerester/deasy/gateway/WebsocketHandler.java:127-153 | the receive time is recorded. Without an open socket the message fails; otherwise a ping goes out first. A message that is not JSON does nothing more |
| Handler.OnOpen | src/main/java/net/towerester/deasy/gateway/WebsocketHandler.java:100-125 | on open, the client sends resume with its token, session id and last sequence exactly when reconnecting |
| Handler.OnPong | src/main/java/net/towerester/deasy/gateway/WebsocketHandler.java:294-305 | ping is the `long` time since the last message narrowed to `int`: congruent to the exact difference modulo 2^32 and equal to it when it fits, whatever the `long` wrap-around; nothing else changes |
| Handler.OnTick | src/main/java/net/towerester/deasy/gateway/WebsocketHandler.java:175-197 | a running task sends a heartbeat with the current last sequence. On a socket that is not open (missing, closing or closed) the send throws and the heartbeat stops for good. Nothing else changes |
| SessionProperties.StepInvariants | src/main/java/net/towerester/deasy/gateway/WebsocketHandler.java:242-262 | every step keeps the configuration, never separates the session id from the resume URL, and never revives or forgets an executor |
| SessionProperties.RunInvariants | src/main/java/net/towerester/deasy/gateway/WebsocketHandler.java:242-262 | the same holds across any run of events |
| SessionProperties.LastSeqOnlyFromDispatch | src/main/java/net/towerester/deasy/gateway/WebsocketHandler.java:155-165 | the last sequence changes only through an opcode-0 frame that carries one, and such a frame always overwrites it, even with a smaller value |
| SessionProperties.PingOnlyFromPong | src/main/java/net/towerester/deasy/gateway/WebsocketHandler.java:294-305 | only a pong changes the ping |
| SessionProperties.ReconnectingOnlyFromResume | src/main/java/net/towerester/deasy/gateway/DiscordClient.java:345-355 | reconnecting is switched on only by `reconnect(false)`, whether the application asks for it or an invalid session does |
| SessionProperties.HelloOrder | src/main/java/net/towerester/deasy/gateway/WebsocketHandler.java:166-209 | a hello starts the heartbeat, then notifies each listener in order, then sends identify |
| SessionProperties.PeriodWraps | src/main/java/net/towerester/deasy/gateway/WebsocketHandler.java:197 | an interval above 2000 ms gives a period 2000 ms shorter; an interval from -2^31 + 2000 to 2000 gives a non-positive period; every interval below that wraps to a positive period; so the period is positive exactly outside that range |
| SessionProperties.InvalidSessionRoutes | src/main/java/net/towerester/deasy/gateway/WebsocketHandler.java:219-237 | an invalid session enters exactly one client method, right after the ping. That is a resume when `d` reads true, a restart when it reads false during a reconnect, and a stop otherwise |
| SessionProperties.InvalidSessionWithoutData | src/main/java/net/towerester/deasy/gateway/WebsocketHandler.java:221 | an invalid session without `d` fails before any client method |
| SessionProperties.ReadySetsSession | src/main/java/net/towerester/deasy/gateway/WebsocketHandler.java:242-262 | READY records both the session id and the resume URL, leaves `reconnecting` alone, takes the frame's sequence number as usual, and notifies each listener in order with the API version |
| SessionProperties.ReadyIncompleteRaises | src/main/java/net/towerester/deasy/gateway/WebsocketHandler.java:243-245 | READY without v, session_id or resume_gateway_url fails and records nothing |
| SessionProperties.ResumedEndsReconnecting | src/main/java/net/towerester/deasy/gateway/WebsocketHandler.java:263-277 | RESUMED ends reconnecting and sends nothing beyond the ping |
| SessionProperties.NormalCloseIsQuiet | src/main/java/net/towerester/deasy/gateway/WebsocketHandler.java:281-287 | a close with reason "Close" does nothing but mark the current socket closed |
| SessionProperties.AbnormalCloseStops | src/main/java/net/towerester/deasy/gateway/WebsocketHandler.java:281-287 | any other reason calls stop. For the current socket, stop does not close it again; for a replaced socket, stop closes the client's current one when that is open or closing |
| SessionProperties.PingUsesLatestMessage | src/main/java/net/towerester/deasy/gateway/WebsocketHandler.java:294-305 | a pong measures from the most recent message |
| SessionProperties.StopLeavesEarlierExecutor | src/main/java/net/towerester/deasy/gateway/WebsocketHandler.java:170-197 | after two hellos and a stop, the first heartbeat executor is still running and only the second is shut down; its next firing finds the socket closing, sends nothing and suppresses the task |
| SessionProperties.HeartbeatLeaks | src/main/java/net/towerester/deasy/gateway/WebsocketHandler.java:170-197 | after a hello, a resume reconnect and a hello on the new socket, both heartbeat tasks run and both send heartbeats on the new socket, in the run where the old task first fires once the new socket is open |
| SessionProperties.FailedResumeSilencesSocket | src/main/java/net/towerester/deasy/gateway/DiscordClient.java:345-355 | a resume with no resume URL closes the open socket and then fails, leaving it closing as the client's socket: a presence update fails and the next heartbeat tick sends nothing and stops its task |
| SessionProperties.FirstHeartbeatIsNull | src/main/java/net/towerester/deasy/gateway/WebsocketHandler.java:179-183 | on a fresh client, the first heartbeat after hello carries null |
| SessionProperties.OpenResumesIffReconnecting | src/main/java/net/towerester/deasy/gateway/WebsocketHandler.java:106-124 | on an open socket, open sends something exactly when reconnecting; that is a single opcode 6 command carrying the token, the session id (null when unknown) and the last sequence number |

## Left out

### Runtime machinery

- **I/O, threads and time** are not executed.
  - Sockets, the keep-alive busy loop, executors, the retry thread's sleep
    and `wait` are effects or inputs.
  - `synchronized` and `volatile` are not modelled: every step is atomic.
- **JSON parsing and writing** (`readTree`, `writeValueAsString`) is not
  modelled. Inbound frames arrive already parsed; a frame that is not JSON
  is `None`. Writing a JSON tree is taken never to fail.
- **Missing `op`, `t` or `s` members** in an inbound frame, which throw in
  the source, are not represented: every frame carries them.
- **The websocket library** is not part of this model.
  - `WebSocketClient.reconnect()` (opcode 7) and `close()` are recorded as
    effects. What the library then does (blocking reconnects, close
    frames, the reasons it reports) is not modelled.
  - A send on a socket that is still connecting is treated as succeeding.
  - After `close()` the socket is closing until the library reports the
    close. A close happens in `stop()`, and also in a resume that then
    fails for want of a resume URL. A send in that window throws, as on a
    closed socket. A second `close()` is sent again, because the socket
    is not yet closed. After a resume that succeeds, the closing socket
    is no longer the client's.
- **Callbacks from replaced sockets.** Of these, only `onClose` is
  modelled, through its `current` flag. Every other callback is attributed
  to the client's current socket, with one shared receive time.
- **Listeners.** A listener is its identity, and notifying it is an
  effect. Exceptions thrown by listeners are not modelled.
- **Logging and debug output.** Logging, debug output and `LogLayout` do
  nothing observable.
- **`onError`** is empty in the source.
- **The constructor's bootstrap request** for `/gateway/bot` is not
  modelled. The gateway URL and the recommended shard count are inputs to
  `Config.Build`, as is the `os.name` property.
- **Builder setters and adders.** The `set*` methods of both builders,
  and the getters, are plain field assignments and reads; they are
  written as datatype updates and field selections. The `add*` methods of
  `DiscordClient.Builder` (`addIntents`, `addIntent`, `addEventListener`,
  `addEventListeners`, `addActivity`) are not modelled. They change the
  stored list in place. After `setIntents(DiscordIntent...)` that list is
  the fixed-size result of `Arrays.asList`, so adding an intent then
  throws `UnsupportedOperationException`. After `setIntents(List)` adding
  changes the caller's own list. Lists are values here, so neither the
  failure nor the sharing can be expressed.
- **TLS.** The trust-all TLS setup behind `allowInsecureConnections` is
  not modelled.
- **Java HTTP stack checks.** Its validation of restricted header names
  and method names is not modelled, nor is its case-insensitive
  response-header lookup.
- **`DiscordStatus`** is not part of this model. Statuses are the five
  values named in the status conditional.

### Weaker or approximate contracts

- Http.IsValidUrl: approximates `new URL(u)`. It accepts a URL whose
  protocol prefix, in any case, is one the Java runtime has a handler
  for. It does not check the rest of the URL's syntax, and does not model
  the leading blanks and `url:` prefix that `new URL` skips.
- Http.ToHttpRequest: `URI.create` also throws on text that is not a
  well-formed URI (a space in the URL, say), and the Java builder also
  rejects an http(s) URI without a host. Only the scheme is checked
  here; a full URI grammar is not part of this model.
- Config.Build: the client shares the builder's `intents`, `listeners`
  and `activities` lists, so later additions through the builder would
  show in the client. Lists are values here; only the REST client the
  builder keeps is modelled.
- Gateway.Start: `URI.create` of the gateway address throws on a
  malformed gateway URL. The gateway URL comes from Discord's bootstrap
  reply, which is not modelled, and is taken to be well formed.
- ErrHandler.Handle: the reply's values arrive already converted:
  - `X-RateLimit-Reset-After` parsed as a double, floored and narrowed;
  - `retry_after` truncated to whole seconds;
  - a member that fails to parse treated as missing.

  Floating point is not modelled.
- Handler.AsBoolean: reads numbers by their integer value. Floating-point
  payloads are not modelled.
- Http.Execute: models `executeAndReturn`. `execute` has the same effect on
  the client and the request and returns only the reply's body.
- Gateway.Stop: tracks only whether each thread and executor is still
  running, not when an in-flight heartbeat finishes.

=== FILE: activity.dfy ===
/** A bot activity (what the bot is "playing", "watching", ...) and its JSON form. */
module Activities {
  import opened Common
  import opened Json

  datatype ActivityType = Playing | Streaming | Listening | Watching | Competing

  /** Built by `new Activity(type, name)`; `getType()`/`getName()` are the
      fields, and there are no mutators. */
  datatype Activity = Activity(kind: ActivityType, name: string)

  /** The numeric activity type the gateway expects; code 4 (custom status)
      is never produced. */
  function TypeCode(t: ActivityType): (code: int)
    ensures 0 <= code <= 5 && code != 4
  {
    match t
    case Playing => 0
    case Streaming => 1
    case Listening => 2
    case Watching => 3
    case Competing => 5
  }

  /** The activity type a numeric code stands for: the inverse of TypeCode. */
  function TypeOfCode(code: int): (r: Option<ActivityType>)
    ensures r.Some? ==> TypeCode(r.value) == code
  {
    match code
    case 0 => Some(Playing)
    case 1 => Some(Streaming)
    case 2 => Some(Listening)
    case 3 => Some(Watching)
    case 5 => Some(Competing)
    case _ => None
  }

  lemma TypeCodeRoundTrip(t: ActivityType)
    ensures TypeOfCode(TypeCode(t)) == Some(t)
  {
  }

  /** `toJson()`: exactly the members `name` and `type`, in that order. */
  function ToJson(a: Activity): (j: Json)
    ensures j.JObj? && Keys(j.members) == ["name", "type"]
    ensures Get(j, "name") == Some(JStr(a.name))
    ensures Get(j, "type") == Some(JInt(TypeCode(a.kind)))
  {
    var ms := [Member("name", JStr(a.name)), Member("type", JInt(TypeCode(a.kind)))];
    assert Find(ms[1..], "type") == Some(JInt(TypeCode(a.kind)));
    JObj(ms)
  }

  /** Reads an activity back from its JSON form. */
  function FromJson(j: Json): (r: Option<Activity>)
    ensures r.Some? ==> ToJson(r.value) == j
  {
    if j.JObj? && |j.members| == 2
       && j.members[0].key == "name" && j.members[0].value.JStr?
       && j.members[1].key == "type" && j.members[1].value.JInt?
       && TypeOfCode(j.members[1].value.i).Some?
    then Some(Activity(TypeOfCode(j.members[1].value.i).value, j.members[0].value.s))
    else None
  }

  /** Encoding loses nothing: the activity is recovered from its JSON. */
  lemma RoundTrip(a: Activity)
    ensures FromJson(ToJson(a)) == Some(a)
  {
    TypeCodeRoundTrip(a.kind);
  }

  lemma ToJsonInjective(a: Activity, b: Activity)
    requires ToJson(a) == ToJson(b)
    ensures a == b
  {
    RoundTrip(a);
    RoundTrip(b);
  }
}

=== FILE: common.dfy ===
/** Small shared vocabulary: optional values (Java references that may be null)
    and Java's 32-bit `int` arithmetic, which the source relies on in a few places. */
module Common {

  /** A Java reference that may be null. */
  datatype Option<+T> = None | Some(value: T)

  const TWO_32: int := 0x1_0000_0000
  const TWO_64: int := 0x1_0000_0000_0000_0000

  /** The values of a Java `int`. */
  type int32 = x: int | -0x8000_0000 <= x < 0x8000_0000

  /** Narrowing of a mathematical integer to a Java `int` (two's complement
      wrap-around), as done by `(int)` casts and by `int` addition. */
  function Wrap32(x: int): (r: int32)
    ensures (x - r) % TWO_32 == 0
    ensures -0x8000_0000 <= x < 0x8000_0000 ==> r == x
  {
    (x + 0x8000_0000) % TWO_32 - 0x8000_0000
  }

  /** Narrowing of a mathematical integer to a Java `long`, as done by `long`
      subtraction. */
  function Wrap64(x: int): (r: int)
    ensures -0x8000_0000_0000_0000 <= r < 0x8000_0000_0000_0000
    ensures (x - r) % TWO_64 == 0
    ensures -0x8000_0000_0000_0000 <= x < 0x8000_0000_0000_0000 ==> r == x
  {
    (x + 0x8000_0000_0000_0000) % TWO_64 - 0x8000_0000_0000_0000
  }

  /** An `int` is fixed by its residue modulo 2^32: `Wrap32(x)` is the only
      `int` congruent to `x`. */
  lemma Wrap32Unique(x: int, r: int32)
    requires (x - r) % TWO_32 == 0
    ensures Wrap32(x) == r
  {
    var w := Wrap32(x);
    var q1, q2 := (x - r) / TWO_32, (x - w) / TWO_32;
    assert x - r == TWO_32 * q1;
    assert x - w == TWO_32 * q2;
    assert w - r == TWO_32 * (q1 - q2);
  }

  /** Congruence modulo 2^32 is transitive. */
  lemma CongruentTrans(a: int, b: int, c: int)
    requires (a - b) % TWO_32 == 0 && (b - c) % TWO_32 == 0
    ensures (a - c) % TWO_32 == 0
  {
    var q1, q2 := (a - b) / TWO_32, (b - c) / TWO_32;
    assert a - c == TWO_32 * (q1 + q2);
  }

  /** A multiple of 2^64 is a multiple of 2^32. */
  lemma LongMultipleIsIntMultiple(d: int)
    requires d % TWO_64 == 0
    ensures d % TWO_32 == 0
  {
    var k := 0x1_0000_0000 * (d / 0x1_0000_0000_0000_0000);
    assert d == 0x1_0000_0000 * k;
  }

  /** Narrowing a `long` wrap-around to `int` gives what narrowing the exact
      value gives: a 64-bit overflow is invisible in the low 32 bits. */
  lemma Wrap32OfWrap64(x: int)
    ensures Wrap32(Wrap64(x)) == Wrap32(x)
  {
    var l := Wrap64(x);
    LongMultipleIsIntMultiple(x - l);
    CongruentTrans(x, l, Wrap32(l));
    Wrap32Unique(x, Wrap32(l));
  }
}

=== FILE: config.dfy ===
/** The client's configuration: `DiscordClient.Builder` with its defaults,
    and `build()`, which supplies the default REST client. The bootstrap
    request for the gateway URL and the recommended shard count is not
    modelled; those two values are inputs to `Build`. */
module Config {
  import opened Common
  import opened Intents
  import Activities
  import opened Presences
  import Http

  /** A registered event listener, known by its identity. */
  type Listener = nat

  const BASE_URL: string := "https://discord.com/api/v10"
  const LIB_VERSION: string := "v1.0.0-alpha"
  const USER_AGENT: string := "DiscordBot (DISCORDIUM, " + LIB_VERSION + ")"

  datatype Builder = Builder(
    token: string,
    intents: seq<Intent>,
    shardCount: int32,
    shardingEnabled: bool,
    compress: bool,
    allowInsecure: bool,
    http: Option<Http.Client>,
    debug: bool,
    listeners: seq<Listener>,
    activities: seq<Activities.Activity>,
    status: Status)

  /** `new DiscordClient.Builder(token)`. */
  function NewBuilder(token: string): (b: Builder)
    ensures b.token == token
    ensures b.intents == [] && b.listeners == [] && b.activities == []
    ensures b.shardCount == 0
    ensures !b.shardingEnabled && !b.compress && !b.allowInsecure && !b.debug
    ensures b.status == Online
    ensures b.http.None?
  {
    Builder(token, [], 0, false, false, false, None, false, [], [], Online)
  }

  /** What a running client is configured with. */
  datatype ClientConfig = ClientConfig(
    token: string,
    intents: seq<Intent>,
    shardingEnabled: bool,
    shardCount: int32,
    compress: bool,
    http: Http.Client,
    debug: bool,
    listeners: seq<Listener>,
    activities: seq<Activities.Activity>,
    status: Status,
    gatewayUrl: string,
    recommendedShards: int32,
    osName: string)

  /** The REST client `build()` makes when none was given. */
  function DefaultHttp(token: string, allowInsecure: bool): (c: Http.Client)
    ensures c.defaultHeaders == map["Authorization" := "Bot " + token, "User-Agent" := USER_AGENT]
    ensures !c.exhausted && c.resetAfter == 0
  {
    var b := Http.NewClientBuilder().(allowInsecure := allowInsecure);
    var b := Http.AddDefaultHeader(b, "Authorization", "Bot " + token);
    var b := Http.AddDefaultHeader(b, "User-Agent", USER_AGENT);
    Http.BuildClient(Http.WithBaseUrl(b, BASE_URL))
  }

  /** The REST base URL is a valid URL, so the default client keeps it. */
  lemma BaseUrlValid()
    ensures Http.IsValidUrl(BASE_URL)
  {
    Http.ColonAt(BASE_URL, 0, 5);
    assert BASE_URL[..5] == "https";
    Http.LowerAsciiKeeps("https");
  }

  /** What `build()` leaves behind: the new client's configuration, and the
      builder, which now holds the REST client the client uses. */
  datatype Built = Built(cfg: ClientConfig, builder: Builder)

  /** `build()` followed by the client's constructor; `gatewayUrl`,
      `recommendedShards` and `osName` come from outside. The default REST
      client is stored in the builder's own field, so later builds reuse it. */
  function Build(b: Builder, gatewayUrl: string, recommendedShards: int32, osName: string): (r: Built)
    ensures var cfg := r.cfg;
      && cfg.token == b.token && cfg.intents == b.intents && cfg.listeners == b.listeners
      && cfg.activities == b.activities && cfg.status == b.status
      && cfg.shardingEnabled == b.shardingEnabled && cfg.shardCount == b.shardCount
      && cfg.compress == b.compress && cfg.debug == b.debug
      && cfg.gatewayUrl == gatewayUrl && cfg.recommendedShards == recommendedShards && cfg.osName == osName
    ensures b.http.Some? ==> r.cfg.http == b.http.value && r.builder == b
    ensures b.http.None? ==> r.cfg.http == DefaultHttp(b.token, b.allowInsecure)
    ensures r.builder.http == Some(r.cfg.http)
    ensures r.builder == b.(http := r.builder.http)
  {
    var http := if b.http.Some? then b.http.value else DefaultHttp(b.token, b.allowInsecure);
    var cfg := ClientConfig(b.token, b.intents, b.shardingEnabled, b.shardCount, b.compress, http, b.debug,
                            b.listeners, b.activities, b.status, gatewayUrl, recommendedShards, osName);
    Built(cfg, b.(http := Some(http)))
  }

  /** A builder that built once keeps its first default REST client: a
      second build after `setToken` still authenticates with the first
      token. */
  lemma RebuildKeepsFirstToken(b: Builder, token: string, gatewayUrl: string, recommendedShards: int32, osName: string)
    requires b.http.None?
    ensures var first := Build(b, gatewayUrl, recommendedShards, osName);
      var second := Build(first.builder.(token := token), gatewayUrl, recommendedShards, osName);
      && second.cfg.token == token
      && second.cfg.http == first.cfg.http
      && second.cfg.http.defaultHeaders["Authorization"] == "Bot " + b.token
  {
  }

  /** Without a REST client of its own, a built client authenticates as a
      bot, identifies itself with the library's user agent, and talks to
      the versioned REST base URL. */
  lemma BuildDefaultHttp(b: Builder, gatewayUrl: string, recommendedShards: int32, osName: string)
    requires b.http.None?
    ensures var h := Build(b, gatewayUrl, recommendedShards, osName).cfg.http;
      && h.baseUrl == Some(BASE_URL)
      && h.defaultHeaders["Authorization"] == "Bot " + b.token
      && h.defaultHeaders["User-Agent"] == USER_AGENT
      && !h.exhausted
  {
    BaseUrlValid();
  }
}

=== FILE: errhandler.dfy ===
/** The REST error handler: reads a reply's rate-limit headers, status and
    JSON body and decides whether to mark the client exhausted, schedule a
    retry of the request, or log an API error. The retry thread becomes an
    effect carrying its delay; running it is `RunRetry`. */
module ErrHandler {
  import opened Common
  import opened Http

  datatype Effect =
    | ScheduleRetry(seconds: int, request: Request)  // a thread sleeping, then re-executing the request
    | ReportApiError(code: int32, message: string)   // only logged

  /** The handler's result: the client afterwards, the effects in order, and
      whether an exception escaped the handler (a missing header or member
      read through a null reference, or a null body). */
  datatype Handled = Handled(client: Client, effects: seq<Effect>, raised: bool)

  /** The number of retries among the effects. */
  function Retries(es: seq<Effect>): (n: nat)
    ensures n <= |es|
    ensures n == 0 <==> forall k :: 0 <= k < |es| ==> !es[k].ScheduleRetry?
  {
    if |es| == 0 then 0
    else (if es[0].ScheduleRetry? then 1 else 0) + Retries(es[1..])
  }

  /** The rate-limit part: None when handling continues, otherwise the
      final result (a missing header, or an exhausted bucket). */
  function RateGate(c: Client, h: RateHeaders): (r: Option<Handled>)
    ensures r.Some? <==> !GateOpen(h)
    ensures r.Some? ==> r.value.effects == []
    ensures r.Some? && r.value.raised ==> r.value.client == c
    ensures r.Some? && !r.value.raised ==> h.resetAfter.Some? && r.value.client == SetExhausted(c, true, h.resetAfter.value)
  {
    if !h.limit then None
    else if h.remaining.None? || h.resetAfter.None? || h.bucket.None? then Some(Handled(c, [], true))
    else if h.remaining.value <= 0 then Some(Handled(SetExhausted(c, true, h.resetAfter.value), [], false))
    else None
  }

  /** `ErrHandler.handle(client, json, response, request)`; `json` None is a
      null body. */
  function Handle(c: Client, json: Option<ReplyFields>, resp: Response, req: Request): (h: Handled)
    ensures h.client != c ==> Depleted(resp.rate) && h == Handled(SetExhausted(c, true, resp.rate.resetAfter.value), [], false)
    ensures Retries(h.effects) <= 1
    ensures resp.status != 429 ==> Retries(h.effects) == 0
  {
    match RateGate(c, resp.rate)
    case Some(done) => done
    case None =>
      if resp.status == 429 && json.None? then Handled(c, [], true)
      else if resp.status == 429 && json.value.retryAfter.Some?
              && (json.value.message.None? || json.value.global.None?) then
        Handled(c, [], true)
      else
        var retry := if resp.status == 429 && json.value.retryAfter.Some?
                     then [ScheduleRetry(json.value.retryAfter.value, req)] else [];
        if json.None? then Handled(c, retry, true)
        else if json.value.code.Some? && json.value.message.Some? then
          Handled(c, retry + [ReportApiError(json.value.code.value, json.value.message.value)], false)
        else Handled(c, retry, false)
  }

  /** Whether the reply's rate-limit headers report an exhausted bucket. */
  predicate Depleted(h: RateHeaders)
  {
    h.limit && h.remaining.Some? && h.resetAfter.Some? && h.bucket.Some? && h.remaining.value <= 0
  }

  /** Whether the rate-limit headers let handling go on past the gate:
      either no limit header, or all four headers present with a positive
      remaining count. */
  predicate GateOpen(h: RateHeaders)
  {
    !h.limit || (h.remaining.Some? && h.resetAfter.Some? && h.bucket.Some? && h.remaining.value > 0)
  }

  /** An exhausted bucket marks the client exhausted with the floored reset
      delay and ends handling: no retry, no error report. */
  lemma DepletedMarksExhausted(c: Client, json: Option<ReplyFields>, resp: Response, req: Request)
    requires Depleted(resp.rate)
    ensures Handle(c, json, resp, req) == Handled(SetExhausted(c, true, resp.rate.resetAfter.value), [], false)
  {
  }

  /** The exhausted flag changes only through a depleted bucket. */
  lemma ExhaustedOnlyWhenDepleted(c: Client, json: Option<ReplyFields>, resp: Response, req: Request)
    requires !Depleted(resp.rate)
    ensures Handle(c, json, resp, req).client == c
  {
  }

  /** With the limit header present, the remaining, reset-after and bucket
      headers must all be there; otherwise handling fails on the spot. */
  lemma LimitHeadersRequired(c: Client, json: Option<ReplyFields>, resp: Response, req: Request)
    requires resp.rate.limit && (resp.rate.remaining.None? || resp.rate.resetAfter.None? || resp.rate.bucket.None?)
    ensures Handle(c, json, resp, req) == Handled(c, [], true)
  {
  }

  /** A 429 reply whose body carries `retry_after`, `message` and `global`
      schedules exactly one retry, of the very same request, after the
      truncated `retry_after` seconds. */
  lemma TooManyRequestsRetriesOnce(c: Client, f: ReplyFields, resp: Response, req: Request)
    requires GateOpen(resp.rate)
    requires resp.status == 429
    requires f.retryAfter.Some? && f.message.Some? && f.global.Some?
    ensures var h := Handle(c, Some(f), resp, req);
      && !h.raised && Retries(h.effects) == 1
      && h.effects[0] == ScheduleRetry(f.retryAfter.value, req)
  {
  }

  /** A 429 reply without `retry_after` schedules nothing. */
  lemma TooManyRequestsWithoutDelay(c: Client, f: ReplyFields, resp: Response, req: Request)
    requires resp.status == 429 && f.retryAfter.None?
    ensures Retries(Handle(c, Some(f), resp, req).effects) == 0
  {
  }

  /** A body with `code` and `message` only yields an error report: nothing
      is thrown and, outside 429, nothing is retried. */
  lemma ApiErrorOnlyReported(c: Client, f: ReplyFields, resp: Response, req: Request)
    requires GateOpen(resp.rate) && resp.status != 429
    requires f.code.Some? && f.message.Some?
    ensures Handle(c, Some(f), resp, req) == Handled(c, [ReportApiError(f.code.value, f.message.value)], false)
  {
  }

  /** A null body makes the handler throw unless the bucket is exhausted. */
  lemma NullBodyRaises(c: Client, resp: Response, req: Request)
    requires !Depleted(resp.rate)
    ensures Handle(c, None, resp, req).raised
  {
  }

  /** What the retry thread does after its sleep: execute the request again
      and, when a reply arrives and its body reads as JSON, hand it back to
      the handler together with the same (further mutated) request. */
  datatype Retried = Retried(exec: Exec, handled: Option<Handled>)

  function RunRetry(c: Client, req: Request, reply: Option<Response>): (r: Retried)
    ensures r.exec == Execute(c, req, reply)
    ensures r.handled.Some? <==> r.exec.Done? && r.exec.response.Some? && r.exec.response.value.body.Tree?
    ensures r.handled.Some? ==>
      r.handled.value == Handle(r.exec.client, Some(r.exec.response.value.body.fields), r.exec.response.value, r.exec.request)
  {
    var e := Execute(c, req, reply);
    if e.Done? && e.response.Some? && e.response.value.body.Tree? then
      Retried(e, Some(Handle(e.client, Some(e.response.value.body.fields), e.response.value, e.request)))
    else Retried(e, None)
  }

  /** The retry re-executes the request object that was already prepared
      once, so with a non-empty base URL the retried request goes out with
      the base URL twice in front of the path. */
  lemma RetryPrefixesTwice(c: Client, path: string, verb: string, reply: Response, reply2: Option<Response>)
    requires !c.exhausted && c.baseUrl.Some? && c.baseUrl.value != "" && HttpScheme(c.baseUrl.value)
    requires Bodiless(verb)
    requires reply.status == 429 && reply.body.Tree? && !reply.rate.limit
    requires reply.body.fields.retryAfter.Some? && reply.body.fields.message.Some? && reply.body.fields.global.Some?
    ensures var first := Execute(c, NewRequest(path, verb), Some(reply));
      var h := Handle(first.client, Some(reply.body.fields), reply, first.request);
      && h.effects[0].ScheduleRetry?
      && var again := RunRetry(h.client, h.effects[0].request, reply2).exec;
      && again.Done? && again.sent.Some?
      && again.sent.value.url == c.baseUrl.value + c.baseUrl.value + path
  {
    var first := Execute(c, NewRequest(path, verb), Some(reply));
    assert first.request.url == c.baseUrl.value + path;
    var h := Handle(first.client, Some(reply.body.fields), reply, first.request);
    assert h.effects[0] == ScheduleRetry(reply.body.fields.retryAfter.value, first.request);
    SchemeOfExtension(c.baseUrl.value, c.baseUrl.value + path);
    assert c.baseUrl.value + (c.baseUrl.value + path) == c.baseUrl.value + c.baseUrl.value + path;
  }
}

=== FILE: gateway.dfy ===
/** The gateway side of `DiscordClient`: the session state the client and
    its websocket handler share, the effects they have on the outside world,
    and the client operations `start`, `stop`, `reconnect` and
    `updatePresence`. Sockets, threads and executors are not run; what the
    code asks of them is recorded as effects, in order. */
module Gateway {
  import opened Common
  import opened Json
  import opened Config
  import Presences
  import Payloads

  /** The client's current websocket. `Live` covers connecting and open;
      `Closing` is a socket whose close was asked for but has not completed
      (the library no longer sends on it, yet does not count it as closed);
      `Closed` is a socket whose close has completed. */
  datatype Socket = NoSocket | Live | Closing | Closed

  /** A heartbeat executor: the period its task was scheduled with (None
      when scheduling was refused), and whether it is still running. */
  datatype Executor = Executor(period: Option<int32>, live: bool)

  /** The state shared by the client and its current websocket handler.
      `probeTime` is the handler's time of the last inbound message; every
      new handler starts from 0. `keepAlive` and `heartbeats` list every
      keep-alive thread and heartbeat executor ever started, oldest first:
      the client only holds a reference to the last one. */
  datatype Session = Session(
    cfg: ClientConfig,
    lastSeq: int32,
    sessionId: Option<string>,
    resumeUrl: Option<string>,
    reconnecting: bool,
    ping: int32,
    probeTime: int,
    socket: Socket,
    keepAlive: seq<bool>,
    heartbeats: seq<Executor>)

  /** A client method the websocket handler calls. */
  datatype ClientMethod = StopCall | ReconnectCall(failed: bool)

  datatype Effect =
    | Send(payload: Json)                        // a text frame on the current socket
    | SendPing                                   // a websocket ping frame
    | Connect(url: string)                       // a new socket connecting to url
    | CloseSocket(code: int, reason: string)     // close(code, reason) on the current socket
    | CloseSocketDefault                         // the library's close() without arguments
    | TransportReconnect                         // the library's reconnect() of the same socket
    | StartKeepAlive                             // a new keep-alive thread
    | InterruptKeepAlive                         // interrupting the latest keep-alive thread
    | StartHeartbeat(executor: nat, period: int32)  // fixed-rate heartbeat task, initial delay 0
    | ShutdownHeartbeat(executor: nat)
    | NotifyHello(listener: Listener, interval: int32)
    | NotifyReady(listener: Listener, version: int32, sessionId: string, resumeUrl: string)
    | Calls(call: ClientMethod)                  // the handler entering a client method

  /** Whether no effect is the handler entering a client method. */
  predicate NoCalls(es: seq<Effect>)
  {
    forall k :: 0 <= k < |es| ==> !es[k].Calls?
  }

  /** The state after an operation, the effects in order, and whether an
      exception escaped it (the state then holds what was changed before). */
  datatype Outcome = Outcome(state: Session, effects: seq<Effect>, raised: bool)

  /** A freshly constructed client. */
  function NewSession(cfg: ClientConfig): (s: Session)
    ensures s.cfg == cfg
    ensures s.lastSeq == 0 && s.ping == 0 && !s.reconnecting
    ensures s.sessionId.None? && s.resumeUrl.None?
    ensures s.socket == NoSocket && s.keepAlive == [] && s.heartbeats == []
  {
    Session(cfg, 0, None, None, false, 0, 0, NoSocket, [], [])
  }

  const GATEWAY_QUERY: string := "?v=10&encoding=json"
  const COMPRESS_QUERY: string := "&compress=zlib-stream"

  /** The URL `start()` connects to. */
  function GatewayAddress(cfg: ClientConfig): (url: string)
    ensures |url| == |cfg.gatewayUrl| + |GATEWAY_QUERY| + (if cfg.compress then |COMPRESS_QUERY| else 0)
    ensures url[..|cfg.gatewayUrl|] == cfg.gatewayUrl
    ensures url[|cfg.gatewayUrl|..|cfg.gatewayUrl| + |GATEWAY_QUERY|] == GATEWAY_QUERY
  {
    cfg.gatewayUrl + GATEWAY_QUERY + (if cfg.compress then COMPRESS_QUERY else "")
  }

  /** The compression query is asked for exactly when compression is on. */
  lemma GatewayAddressCompressIff(cfg: ClientConfig)
    ensures var url := GatewayAddress(cfg);
      cfg.compress <==> |url| >= |COMPRESS_QUERY| && url[|url| - |COMPRESS_QUERY|..] == COMPRESS_QUERY
  {
    var url := GatewayAddress(cfg);
    if !cfg.compress {
      assert url[|url| - 1] == 'n';
      assert COMPRESS_QUERY[|COMPRESS_QUERY| - 1] == 'm';
    }
  }

  /** `start()`: a new handler (probe time 0) for the gateway address, a new
      keep-alive thread, then the connection. */
  function Start(s: Session): (r: Outcome)
    ensures r.effects == [StartKeepAlive, Connect(GatewayAddress(s.cfg))] && !r.raised && NoCalls(r.effects)
    ensures r.state.socket == Live && r.state.probeTime == 0
    ensures r.state.keepAlive == s.keepAlive + [true]
    ensures r.state.lastSeq == s.lastSeq && r.state.sessionId == s.sessionId && r.state.resumeUrl == s.resumeUrl
    ensures r.state.reconnecting == s.reconnecting && r.state.ping == s.ping
    ensures r.state.heartbeats == s.heartbeats && r.state.cfg == s.cfg
  {
    Outcome(s.(socket := Live, probeTime := 0, keepAlive := s.keepAlive + [true]),
            [StartKeepAlive, Connect(GatewayAddress(s.cfg))], false)
  }

  /** `stop()`: close the socket with 1001 "Close" unless it is closed
      already (a socket still closing is asked again), interrupt the latest
      keep-alive thread and shut down the latest heartbeat executor. An open
      socket is closing afterwards. Each missing reference throws at its
      step. */
  function Stop(s: Session): (r: Outcome)
    ensures r.raised <==> s.socket == NoSocket || |s.keepAlive| == 0 || |s.heartbeats| == 0
    ensures (s.socket == Live || s.socket == Closing) ==> |r.effects| > 0 && r.effects[0] == CloseSocket(1001, "Close")
    ensures (s.socket == NoSocket || s.socket == Closed) ==>
      forall k :: 0 <= k < |r.effects| ==> !r.effects[k].CloseSocket?
    ensures r.state.socket == (if s.socket == Live then Closing else s.socket)
    ensures !r.raised ==>
      r.effects == (if s.socket != Closed then [CloseSocket(1001, "Close")] else [])
                   + [InterruptKeepAlive, ShutdownHeartbeat(|s.heartbeats| - 1)]
    ensures !r.raised ==>
      (&& |r.state.heartbeats| == |s.heartbeats|
       && !r.state.heartbeats[|s.heartbeats| - 1].live
       && r.state.heartbeats[|s.heartbeats| - 1].period == s.heartbeats[|s.heartbeats| - 1].period
       && r.state.heartbeats[..|s.heartbeats| - 1] == s.heartbeats[..|s.heartbeats| - 1])
    ensures !r.raised ==>
      (&& |r.state.keepAlive| == |s.keepAlive|
       && !r.state.keepAlive[|s.keepAlive| - 1]
       && r.state.keepAlive[..|s.keepAlive| - 1] == s.keepAlive[..|s.keepAlive| - 1])
    ensures r.state == s.(socket := r.state.socket, keepAlive := r.state.keepAlive, heartbeats := r.state.heartbeats)
    ensures r.raised ==> r.state.heartbeats == s.heartbeats
    ensures NoCalls(r.effects)
  {
    if s.socket == NoSocket then Outcome(s, [], true)
    else
      var closing := if s.socket != Closed then [CloseSocket(1001, "Close")] else [];
      var s0 := if s.socket == Live then s.(socket := Closing) else s;
      if |s.keepAlive| == 0 then Outcome(s0, closing, true)
      else
        var s1 := s0.(keepAlive := s.keepAlive[|s.keepAlive| - 1 := false]);
        if |s.heartbeats| == 0 then Outcome(s1, closing + [InterruptKeepAlive], true)
        else
          var last := |s.heartbeats| - 1;
          Outcome(s1.(heartbeats := s.heartbeats[last := s.heartbeats[last].(live := false)]),
                  closing + [InterruptKeepAlive, ShutdownHeartbeat(last)], false)
  }

  /** The session fields a reconnect never clears. */
  predicate KeepsSession(s: Session, t: Session)
  {
    t.cfg == s.cfg && t.lastSeq == s.lastSeq && t.sessionId == s.sessionId && t.resumeUrl == s.resumeUrl
  }

  /** `reconnect(failed)`. Without `failed`: close the current socket (a
      null socket is tolerated), mark the client reconnecting, and connect a
      new handler to the resume URL, which throws when there is none; the
      old socket is then still the client's, and closing. With `failed`:
      `stop()` then `start()`. */
  function Reconnect(s: Session, failed: bool): (r: Outcome)
    ensures KeepsSession(s, r.state) && NoCalls(r.effects) && r.state.ping == s.ping
    ensures !failed ==> r.state.reconnecting
    ensures failed ==> r.state.reconnecting == s.reconnecting
    ensures !failed ==> (r.raised <==> s.resumeUrl.None?)
    ensures !failed && s.resumeUrl.Some? ==>
      r.state.socket == Live && r.state.probeTime == 0
      && |r.effects| > 0 && r.effects[|r.effects| - 1] == Connect(s.resumeUrl.value)
    ensures !failed && s.resumeUrl.None? ==>
      r.state.socket == (if s.socket == Live then Closing else s.socket)
      && r.state.probeTime == s.probeTime
      && r.effects == (if s.socket == NoSocket then [] else [CloseSocketDefault])
    ensures !failed ==> r.state.heartbeats == s.heartbeats && r.state.keepAlive == s.keepAlive
    ensures failed ==> r.raised == Stop(s).raised
    ensures failed && !r.raised ==> r.effects == Stop(s).effects + Start(Stop(s).state).effects
  {
    if !failed then
      var closing := if s.socket == NoSocket then [] else [CloseSocketDefault];
      var s1 := s.(reconnecting := true);
      if s.resumeUrl.None? then
        Outcome(s1.(socket := if s.socket == Live then Closing else s.socket), closing, true)
      else Outcome(s1.(socket := Live, probeTime := 0), closing + [Connect(s.resumeUrl.value)], false)
    else
      var o := Stop(s);
      if o.raised then o
      else
        var o2 := Start(o.state);
        Outcome(o2.state, o.effects + o2.effects, false)
  }

  /** `updatePresence(p)`: sends the presence-update command on the current
      socket. A missing socket throws, and so does one that is closing or
      closed, since the websocket library refuses to send on it. */
  function UpdatePresence(s: Session, p: Presences.Presence): (r: Outcome)
    ensures r.state == s
    ensures r.raised <==> s.socket != Live
    ensures !r.raised ==> r.effects == [Send(Payloads.PresenceUpdate(p))]
    ensures r.raised ==> r.effects == []
  {
    if s.socket != Live then Outcome(s, [], true)
    else Outcome(s, [Send(Payloads.PresenceUpdate(p))], false)
  }
}

=== FILE: handler.dfy ===
/** `WebsocketHandler` as a step function: each callback the websocket
    library makes (open, message, pong, close) and each firing of a
    heartbeat task takes the shared session to a new one and records what
    the handler asked of the outside world. Client operations the
    application calls are steps too, so whole runs can be reasoned about. */
module Handler {
  import opened Common
  import opened Config
  import Presences
  import Payloads
  import opened Gateway

  /** The members of an inbound `d` object the handler reads, as Jackson's
      `asInt`/`asText` read them; None is a member that is absent. */
  datatype Fields = Fields(
    heartbeatInterval: Option<int32>,
    v: Option<int32>,
    sessionId: Option<string>,
    resumeUrl: Option<string>)

  /** The `d` member of an inbound frame; `Missing` is a frame without one. */
  datatype Data = Missing | DNull | DBool(b: bool) | DInt(n: int) | DText(s: string) | DObj(fields: Fields) | DOther

  /** An inbound frame whose JSON could be read: its opcode, its sequence
      number and event name (None for JSON null) and its payload. */
  datatype Frame = Frame(op: int32, s: Option<int32>, t: Option<string>, d: Data)

  /** Java's `String.trim()`: drops every leading and trailing character at
      or below the space character. */
  function TrimStart(s: string): (r: string)
    ensures |r| <= |s| && r == s[|s| - |r|..]
    ensures |r| > 0 ==> r[0] > ' '
    ensures forall k :: 0 <= k < |s| - |r| ==> s[k] <= ' '
  {
    if |s| > 0 && s[0] <= ' ' then TrimStart(s[1..]) else s
  }

  function TrimEnd(s: string): (r: string)
    ensures |r| <= |s| && r == s[..|r|]
    ensures |r| > 0 ==> r[|r| - 1] > ' '
    ensures forall k :: |r| <= k < |s| ==> s[k] <= ' '
  {
    if |s| > 0 && s[|s| - 1] <= ' ' then TrimEnd(s[..|s| - 1]) else s
  }

  function JavaTrim(s: string): string
  {
    TrimEnd(TrimStart(s))
  }

  /** `json.get("d").asBoolean()`: None when there is no `d` (the call
      throws); numbers are true when non-zero, text when it trims to "true",
      everything else false. */
  function AsBoolean(d: Data): (r: Option<bool>)
    ensures r.None? <==> d.Missing?
    ensures d.DBool? ==> r == Some(d.b)
    ensures d.DInt? ==> r == Some(d.n != 0)
    ensures d.DText? ==> (r == Some(true) <==> JavaTrim(d.s) == "true")
    ensures d.DNull? || d.DObj? || d.DOther? ==> r == Some(false)
  {
    match d
    case Missing => None
    case DBool(b) => Some(b)
    case DInt(n) => Some(n != 0)
    case DText(s) => Some(JavaTrim(s) == "true")
    case _ => Some(false)
  }

  /** The hello notices, one per registered listener, in registration order. */
  function HelloNotices(ls: seq<Listener>, interval: int32): (es: seq<Effect>)
    ensures |es| == |ls|
    ensures forall k :: 0 <= k < |ls| ==> es[k] == NotifyHello(ls[k], interval)
  {
    seq(|ls|, k requires 0 <= k < |ls| => NotifyHello(ls[k], interval))
  }

  /** The ready notices, one per registered listener, in registration order. */
  function ReadyNotices(ls: seq<Listener>, v: int32, sid: string, url: string): (es: seq<Effect>)
    ensures |es| == |ls|
    ensures forall k :: 0 <= k < |ls| ==> es[k] == NotifyReady(ls[k], v, sid, url)
  {
    seq(|ls|, k requires 0 <= k < |ls| => NotifyReady(ls[k], v, sid, url))
  }

  /** The heartbeat period the hello handler asks for: the interval less two
      seconds, in Java `int` arithmetic. */
  function Period(interval: int32): int32
  {
    Wrap32(interval as int - 2000)
  }

  /** Opcode 10. A new executor always replaces the client's reference; its
      fixed-rate task is scheduled only when the period is positive (the
      executor refuses any other period, which is logged). Then every
      listener hears of the hello, and identify is sent unless the client
      is reconnecting. */
  function Hello(s: Session, interval: int32): (r: Outcome)
    ensures !r.raised
    ensures |r.state.heartbeats| == |s.heartbeats| + 1 && r.state.heartbeats[..|s.heartbeats|] == s.heartbeats
    ensures r.state.heartbeats[|s.heartbeats|].live
    ensures r.state.heartbeats[|s.heartbeats|].period.Some? <==> Period(interval) > 0
    ensures r.state == s.(heartbeats := r.state.heartbeats)
    ensures Period(interval) > 0 ==> |r.effects| > 0 && r.effects[0] == StartHeartbeat(|s.heartbeats|, Period(interval))
    ensures Period(interval) <= 0 ==> forall k :: 0 <= k < |r.effects| ==> !r.effects[k].StartHeartbeat?
    ensures !s.reconnecting ==> |r.effects| > 0 && r.effects[|r.effects| - 1] == Send(Payloads.Identify(s.cfg))
    ensures s.reconnecting ==> forall k :: 0 <= k < |r.effects| ==> !r.effects[k].Send?
  {
    var idx := |s.heartbeats|;
    var period := Period(interval);
    var scheduled := period > 0;
    var starts := if scheduled then [StartHeartbeat(idx, period)] else [];
    var ident := if s.reconnecting then [] else [Send(Payloads.Identify(s.cfg))];
    var notices := HelloNotices(s.cfg.listeners, interval);
    var es := starts + notices + ident;
    Outcome(s.(heartbeats := s.heartbeats + [Executor(if scheduled then Some(period) else None, true)]), es, false)
  }

  /** A client method entered from the handler, recorded before its effects. */
  function Calling(m: ClientMethod, o: Outcome): (r: Outcome)
    ensures r.state == o.state && r.raised == o.raised
    ensures |r.effects| == |o.effects| + 1 && r.effects[0] == Calls(m) && r.effects[1..] == o.effects
  {
    Outcome(o.state, [Calls(m)] + o.effects, o.raised)
  }

  /** The opcode switch of `onMessage`. Only opcode 0 touches the last
      sequence number, and it always overwrites it when the frame has one. */
  function OpSwitch(s: Session, f: Frame): (r: Outcome)
    ensures r.state.cfg == s.cfg && r.state.ping == s.ping
    ensures r.state.lastSeq != s.lastSeq ==> f.op == 0 && f.s.Some?
    ensures f.op == 0 && f.s.Some? ==> r.state.lastSeq == f.s.value
    ensures r.state.reconnecting && !s.reconnecting ==> |r.effects| > 0 && r.effects[0] == Calls(ReconnectCall(false))
  {
    if f.op == 0 then
      Outcome(if f.s.Some? then s.(lastSeq := f.s.value) else s, [], false)
    else if f.op == 10 then
      if f.d.DObj? && f.d.fields.heartbeatInterval.Some? then Hello(s, f.d.fields.heartbeatInterval.value)
      else Outcome(s, [], true)
    else if f.op == 7 then
      Outcome(s, [TransportReconnect], false)
    else if f.op == 9 then
      match AsBoolean(f.d)
      case None => Outcome(s, [], true)
      case Some(canResume) =>
        if canResume then Calling(ReconnectCall(false), Reconnect(s, false))
        else if s.reconnecting then Calling(ReconnectCall(true), Reconnect(s, true))
        else Calling(StopCall, Stop(s))
    else Outcome(s, [], false)
  }

  /** The event-name switch of `onMessage`: READY records the session id and
      the resume URL and tells every listener; RESUMED ends reconnecting. */
  function EventSwitch(s: Session, f: Frame): (r: Outcome)
    ensures r.state == s.(sessionId := r.state.sessionId, resumeUrl := r.state.resumeUrl, reconnecting := r.state.reconnecting)
    ensures r.state.reconnecting ==> s.reconnecting
    ensures (r.state.sessionId.Some? && r.state.resumeUrl.Some?)
            || (r.state.sessionId == s.sessionId && r.state.resumeUrl == s.resumeUrl)
    ensures NoCalls(r.effects)
  {
    var name := if f.t.Some? then f.t.value else "";
    if name == "READY" then
      if f.d.DObj? && f.d.fields.v.Some? && f.d.fields.sessionId.Some? && f.d.fields.resumeUrl.Some? then
        var fs := f.d.fields;
        Outcome(s.(sessionId := fs.sessionId, resumeUrl := fs.resumeUrl),
                ReadyNotices(s.cfg.listeners, fs.v.value, fs.sessionId.value, fs.resumeUrl.value), false)
      else Outcome(s, [], true)
    else if name == "RESUMED" then
      Outcome(s.(reconnecting := false), [], false)
    else Outcome(s, [], false)
  }

  /** `onMessage`. The receive time is recorded first, then a ping goes out
      on the client's socket (which throws without an open one). A message
      that is not JSON stops there; otherwise the opcode switch and, unless
      it threw, the event switch follow. */
  function OnMessage(s: Session, now: int, frame: Option<Frame>): (r: Outcome)
    ensures r.state.cfg == s.cfg && r.state.ping == s.ping
    ensures r.state.lastSeq != s.lastSeq ==> s.socket == Live && frame.Some? && frame.value.op == 0 && frame.value.s.Some?
    ensures s.socket == Live && frame.Some? && frame.value.op == 0 && frame.value.s.Some? ==> r.state.lastSeq == frame.value.s.value
    ensures s.socket != Live ==> r == Outcome(s.(probeTime := now), [], true)
    ensures s.socket == Live ==> |r.effects| > 0 && r.effects[0] == SendPing
    ensures frame.None? && s.socket == Live ==> r == Outcome(s.(probeTime := now), [SendPing], false)
  {
    var s0 := s.(probeTime := now);
    if s.socket != Live then Outcome(s0, [], true)
    else if frame.None? then Outcome(s0, [SendPing], false)
    else
      var o := OpSwitch(s0, frame.value);
      if o.raised then Outcome(o.state, [SendPing] + o.effects, true)
      else
        var e := EventSwitch(o.state, frame.value);
        Outcome(e.state, [SendPing] + o.effects + e.effects, e.raised)
  }

  /** `onOpen`: a reconnecting client sends resume on its socket. */
  function OnOpen(s: Session): (r: Outcome)
    ensures r.state == s
    ensures r.raised <==> s.reconnecting && s.socket != Live
    ensures r.effects == (if s.reconnecting && s.socket == Live
                          then [Send(Payloads.Resume(s.cfg.token, s.sessionId, s.lastSeq))] else [])
  {
    if !s.reconnecting then Outcome(s, [], false)
    else if s.socket != Live then Outcome(s, [], true)
    else Outcome(s, [Send(Payloads.Resume(s.cfg.token, s.sessionId, s.lastSeq))], false)
  }

  /** `onClose(code, reason, remote)` of a handler; `current` says whether
      the handler is still the client's socket. Any reason other than
      "Close" stops the client. */
  function OnClose(s: Session, code: int, reason: string, current: bool): (r: Outcome)
    ensures r.state == s.(socket := r.state.socket, keepAlive := r.state.keepAlive, heartbeats := r.state.heartbeats)
  {
    var s1 := if current && s.socket != NoSocket then s.(socket := Closed) else s;
    if reason != "Close" then Calling(StopCall, Stop(s1))
    else Outcome(s1, [], false)
  }

  /** `onWebsocketPong`: the round trip since the handler's last inbound
      message, a `long` difference of two clock readings, narrowed to `int`. */
  function OnPong(s: Session, now: int): (r: Outcome)
    ensures r.state == s.(ping := r.state.ping) && r.effects == [] && !r.raised
    ensures (r.state.ping - (now - s.probeTime)) % TWO_32 == 0
    ensures -TWO_32 / 2 <= now - s.probeTime < TWO_32 / 2 ==> r.state.ping == now - s.probeTime
  {
    var d := now - s.probeTime;
    Wrap32OfWrap64(d);
    assert Wrap32(Wrap64(d)) == Wrap32(d);
    Outcome(s.(ping := Wrap32(Wrap64(d))), [], false)
  }

  /** One firing of executor `i`'s heartbeat task: it sends a heartbeat with
      the client's last sequence on the client's socket. When that socket
      is no longer open the send throws, and the executor suppresses every
      later firing of that heartbeat task. */
  function OnTick(s: Session, i: nat): (r: Outcome)
    ensures !r.raised
    ensures |r.state.heartbeats| == |s.heartbeats|
    ensures r.state == s.(heartbeats := r.state.heartbeats)
    ensures r.effects != [] <==> Fires(s, i) && s.socket == Live
    ensures r.effects != [] ==> r.effects == [Send(Payloads.Heartbeat(s.lastSeq))]
    ensures r.state != s ==> Fires(s, i) && s.socket != Live && !r.state.heartbeats[i].live
  {
    if !Fires(s, i) then Outcome(s, [], false)
    else if s.socket == Live then Outcome(s, [Send(Payloads.Heartbeat(s.lastSeq))], false)
    else Outcome(s.(heartbeats := s.heartbeats[i := s.heartbeats[i].(live := false)]), [], false)
  }

  /** Whether executor `i` has a running heartbeat task. */
  predicate Fires(s: Session, i: nat)
  {
    i < |s.heartbeats| && s.heartbeats[i].live && s.heartbeats[i].period.Some?
  }

  /** What can happen to a client: the handler's callbacks, a heartbeat
      firing, and the client methods the application calls. */
  datatype Event =
    | Open
    | Message(now: int, frame: Option<Frame>)
    | Pong(now: int)
    | Close(code: int, reason: string, current: bool)
    | Tick(executor: nat)
    | CallStart
    | CallStop
    | CallReconnect(failed: bool)
    | CallUpdatePresence(presence: Presences.Presence)

  function Step(s: Session, e: Event): (r: Outcome)
  {
    match e
    case Open => OnOpen(s)
    case Message(now, frame) => OnMessage(s, now, frame)
    case Pong(now) => OnPong(s, now)
    case Close(code, reason, current) => OnClose(s, code, reason, current)
    case Tick(i) => OnTick(s, i)
    case CallStart => Start(s)
    case CallStop => Stop(s)
    case CallReconnect(failed) => Reconnect(s, failed)
    case CallUpdatePresence(p) => UpdatePresence(s, p)
  }

  /** A run of events. An exception ends only the callback or call it
      escapes from; the run goes on from the state it left. */
  function Run(s: Session, es: seq<Event>): (r: Outcome)
    decreases |es|
  {
    if |es| == 0 then Outcome(s, [], false)
    else
      var o := Step(s, es[0]);
      var rest := Run(o.state, es[1..]);
      Outcome(rest.state, o.effects + rest.effects, o.raised || rest.raised)
  }
}

=== FILE: http.dfy ===
/** The REST client: requests with mutable URL and headers, the client's
    base URL and default headers, and the rate-limit gate (`exhausted`,
    `resetAfter`) that delays the next request. Sending is an input: the
    reply the network would give is passed in, and the wait is an effect
    carrying its duration. */
module Http {
  import opened Common

  // ---------------------------------------------------------------------
  // URL validity
  // ---------------------------------------------------------------------

  /** The position of the first ':' at or after `i`, unless a '/' or the
      end of the text comes first. */
  function ColonFrom(u: string, i: nat): (r: Option<nat>)
    requires i <= |u|
    ensures r.Some? ==> i <= r.value < |u| && u[r.value] == ':'
    ensures r.Some? ==> forall k :: i <= k < r.value ==> u[k] != ':' && u[k] != '/'
    decreases |u| - i
  {
    if i == |u| then None
    else if u[i] == ':' then Some(i)
    else if u[i] == '/' then None
    else ColonFrom(u, i + 1)
  }

  /** The text before the first ':' when no '/' comes earlier: the place
      where a URL names its protocol. */
  function Scheme(u: string): (r: Option<string>)
    ensures r.Some? ==> |r.value| < |u| && u[..|r.value|] == r.value && u[|r.value|] == ':'
    ensures r.Some? ==> ':' !in r.value && '/' !in r.value
  {
    match ColonFrom(u, 0)
    case Some(n) => Some(u[..n])
    case None => None
  }

  /** The search finds a ':' that only other characters precede. */
  lemma {:induction false} ColonAt(u: string, i: nat, n: nat)
    requires i <= n < |u| && u[n] == ':'
    requires forall k :: i <= k < n ==> u[k] != ':' && u[k] != '/'
    ensures ColonFrom(u, i) == Some(n)
    decreases n - i
  {
    if i < n {
      ColonAt(u, i + 1, n);
    }
  }

  /** A URL that starts with a protocol name and ':' names that protocol. */
  lemma SchemeOf(p: string, u: string)
    requires ':' !in p && '/' !in p
    requires |p| < |u| && u[..|p|] == p && u[|p|] == ':'
    ensures Scheme(u) == Some(p)
  {
    assert forall k :: 0 <= k < |p| ==> u[k] == p[k];
    ColonAt(u, 0, |p|);
  }

  /** Appending text to a URL that names a protocol keeps that protocol. */
  lemma SchemeOfExtension(u: string, x: string)
    requires Scheme(u).Some?
    ensures Scheme(u + x) == Scheme(u)
  {
    var p := Scheme(u).value;
    assert (u + x)[..|p|] == u[..|p|];
    SchemeOf(p, u + x);
  }

  /** ASCII upper-case letters to lower case; every other character is kept. */
  function LowerChar(c: char): char
  {
    if 'A' <= c <= 'Z' then (c as int - 'A' as int + 'a' as int) as char else c
  }

  /** A scheme as the Java runtime compares it: protocol names are matched
      without regard to case. */
  function LowerAscii(s: string): (t: string)
    ensures |t| == |s|
    ensures forall k :: 0 <= k < |s| ==> t[k] == LowerChar(s[k])
  {
    if |s| == 0 then [] else [LowerChar(s[0])] + LowerAscii(s[1..])
  }

  /** Text without upper-case letters is its own lower case. */
  lemma LowerAsciiKeeps(s: string)
    requires forall k :: 0 <= k < |s| ==> !('A' <= s[k] <= 'Z')
    ensures LowerAscii(s) == s
  {
  }

  /** The protocols the Java runtime has URL handlers for. */
  const PROTOCOLS: set<string> := {"http", "https", "ftp", "file", "jar", "jrt", "mailto"}

  /** Whether `new URL(u)` succeeds: the URL names a protocol the runtime
      knows, in any mix of upper and lower case. */
  predicate IsValidUrl(u: string)
  {
    Scheme(u).Some? && LowerAscii(Scheme(u).value) in PROTOCOLS
  }

  /** Whether the Java HTTP stack accepts the URL's scheme for a request:
      http or https, in any case. */
  predicate HttpScheme(u: string)
  {
    Scheme(u).Some? && LowerAscii(Scheme(u).value) in {"http", "https"}
  }

  /** Every URL with an http(s) scheme passes the URL check. */
  lemma HttpSchemeIsValid(u: string)
    requires HttpScheme(u)
    ensures IsValidUrl(u)
  {
  }

  /** The URL check accepts protocol names written in upper case, such as
      an upper-case `HTTPS`. */
  lemma UpperCaseSchemeValid()
    ensures IsValidUrl("HTTPS://discord.com/api")
    ensures HttpScheme("HTTPS://discord.com/api")
  {
    var u := "HTTPS://discord.com/api";
    ColonAt(u, 0, 5);
    assert u[..5] == "HTTPS";
    assert LowerAscii("HTTPS") == "https";
  }

  /** A string without a protocol, such as the empty string, is rejected. */
  lemma EmptyUrlInvalid()
    ensures !IsValidUrl("")
  {
  }

  // ---------------------------------------------------------------------
  // Requests
  // ---------------------------------------------------------------------

  /** `SimpleHttpClient.Request`. The body publisher is modelled by the text
      it publishes; None stands for a null publisher. */
  datatype Request = Request(url: string, verb: string, headers: map<string, string>, body: Option<string>)

  /** `new Request.Builder(url, method).build()`: no headers and no body. */
  function NewRequest(url: string, verb: string): (r: Request)
    ensures r.url == url && r.verb == verb
    ensures |r.headers| == 0 && r.body.None?
  {
    Request(url, verb, map[], None)
  }

  /** The header map after storing `value` under `name`: that name now maps
      to `value` and every other header is as before. */
  ghost predicate StoresHeader(before: map<string, string>, after: map<string, string>, name: string, value: string)
  {
    && after.Keys == before.Keys + {name}
    && after[name] == value
    && (forall k :: k in before && k != name ==> after[k] == before[k])
  }

  /** `addHeader`: a plain map put. */
  function AddHeader(r: Request, name: string, value: string): (q: Request)
    ensures StoresHeader(r.headers, q.headers, name, value)
    ensures q.url == r.url && q.verb == r.verb && q.body == r.body
  {
    r.(headers := r.headers[name := value])
  }

  /** `addOrReplaceHeader`: replaces the value when the name is present and
      puts it otherwise. */
  function AddOrReplaceHeader(r: Request, name: string, value: string): (q: Request)
    ensures StoresHeader(r.headers, q.headers, name, value)
    ensures q.url == r.url && q.verb == r.verb && q.body == r.body
  {
    if name in r.headers then
      var replaced := map k | k in r.headers :: if k == name then value else r.headers[k];
      r.(headers := replaced)
    else
      r.(headers := r.headers[name := value])
  }

  /** Both header operations leave the request in the same state. */
  lemma AddOrReplaceIsAdd(r: Request, name: string, value: string)
    ensures AddOrReplaceHeader(r, name, value) == AddHeader(r, name, value)
  {
    var q, p := AddOrReplaceHeader(r, name, value), AddHeader(r, name, value);
    assert q.headers == p.headers;
  }

  /** The request handed to the Java HTTP stack (`java.net.http.HttpRequest`). */
  datatype Outgoing = Outgoing(verb: string, url: string, headers: map<string, string>, body: Option<string>)

  /** GET and DELETE never carry a body. */
  predicate Bodiless(verb: string)
  {
    verb == "GET" || verb == "DELETE"
  }

  /** `toHttpRequest`: the Java builder throws (None) on a URL whose scheme
      is not http or https. GET and DELETE drop the body; PUT, POST and every
      other method pass it on, and there a null body makes the builder
      throw. */
  function ToHttpRequest(r: Request): (o: Option<Outgoing>)
    ensures o.Some? <==> HttpScheme(r.url) && (Bodiless(r.verb) || r.body.Some?)
    ensures o.Some? ==> o.value.verb == r.verb && o.value.url == r.url && o.value.headers == r.headers
    ensures o.Some? && Bodiless(r.verb) ==> o.value.body.None?
    ensures o.Some? && !Bodiless(r.verb) ==> o.value.body == r.body
  {
    if !HttpScheme(r.url) then None
    else match r.verb
    case "GET" => Some(Outgoing("GET", r.url, r.headers, None))
    case "DELETE" => Some(Outgoing("DELETE", r.url, r.headers, None))
    case _ =>
      if r.body.None? then None
      else Some(Outgoing(r.verb, r.url, r.headers, r.body))
  }

  /** The URL check and the request builder disagree: a base URL the
      client accepts, such as an ftp one, names a scheme no request can be
      sent to. */
  lemma ValidUrlNotSendable()
    ensures IsValidUrl("ftp://discord.com")
    ensures ToHttpRequest(NewRequest("ftp://discord.com", "GET")).None?
  {
    var u := "ftp://discord.com";
    ColonAt(u, 0, 3);
    assert u[..3] == "ftp";
    LowerAsciiKeeps("ftp");
  }

  // ---------------------------------------------------------------------
  // The client
  // ---------------------------------------------------------------------

  /** `SimpleHttpClient`'s state. `baseUrl` is None while no valid base URL
      was ever accepted (the Java field is then null). */
  datatype Client = Client(baseUrl: Option<string>, defaultHeaders: map<string, string>, exhausted: bool, resetAfter: int32)

  /** The constructor: not exhausted, and the base URL kept only when valid. */
  function NewClient(baseUrl: string, defaultHeaders: map<string, string>): (c: Client)
    ensures c.baseUrl.Some? <==> IsValidUrl(baseUrl)
    ensures c.baseUrl.Some? ==> c.baseUrl.value == baseUrl
    ensures c.defaultHeaders == defaultHeaders
    ensures !c.exhausted && c.resetAfter == 0
  {
    Client(if IsValidUrl(baseUrl) then Some(baseUrl) else None, defaultHeaders, false, 0)
  }

  /** `SimpleHttpClient.Builder`. */
  datatype ClientBuilder = ClientBuilder(baseUrl: string, defaultHeaders: map<string, string>, allowInsecure: bool)

  /** `new SimpleHttpClient.Builder()`: empty base URL, no default headers,
      certificates checked. */
  function NewClientBuilder(): (b: ClientBuilder)
    ensures b.baseUrl == "" && |b.defaultHeaders| == 0 && !b.allowInsecure
  {
    ClientBuilder("", map[], false)
  }

  /** The builder's `addDefaultHeader`. */
  function AddDefaultHeader(b: ClientBuilder, name: string, value: string): (q: ClientBuilder)
    ensures StoresHeader(b.defaultHeaders, q.defaultHeaders, name, value)
    ensures q.baseUrl == b.baseUrl && q.allowInsecure == b.allowInsecure
  {
    b.(defaultHeaders := b.defaultHeaders[name := value])
  }

  /** The builder's `setBaseUrl`, which stores the text unchecked. */
  function WithBaseUrl(b: ClientBuilder, url: string): (q: ClientBuilder)
    ensures q.baseUrl == url
    ensures q.defaultHeaders == b.defaultHeaders && q.allowInsecure == b.allowInsecure
  {
    b.(baseUrl := url)
  }

  /** The builder's `build()`: the base URL survives only when valid. The
      trust-all TLS setup is not modelled. */
  function BuildClient(b: ClientBuilder): (c: Client)
    ensures c.baseUrl == (if IsValidUrl(b.baseUrl) then Some(b.baseUrl) else None)
    ensures c.defaultHeaders == b.defaultHeaders
    ensures !c.exhausted && c.resetAfter == 0
  {
    NewClient(b.baseUrl, b.defaultHeaders)
  }

  /** A client built without `setBaseUrl` has no base URL at all, because
      the builder's default, the empty string, is not a valid URL. */
  lemma DefaultBuilderHasNoBase(b: ClientBuilder)
    requires b.baseUrl == NewClientBuilder().baseUrl
    ensures BuildClient(b).baseUrl.None?
  {
    EmptyUrlInvalid();
  }

  /** `setExhausted`: the flag is always set; the reset delay only when the
      flag is raised. */
  function SetExhausted(c: Client, exhausted: bool, resetAfter: int32): (d: Client)
    ensures d.exhausted == exhausted
    ensures d.resetAfter == (if exhausted then resetAfter else c.resetAfter)
    ensures d.baseUrl == c.baseUrl && d.defaultHeaders == c.defaultHeaders
  {
    if exhausted then c.(exhausted := true, resetAfter := resetAfter)
    else c.(exhausted := false)
  }

  /** `setBaseUrl`: an invalid candidate leaves the previous base URL. */
  function SetBaseUrl(c: Client, url: string): (d: Client)
    ensures IsValidUrl(url) ==> d.baseUrl == Some(url)
    ensures !IsValidUrl(url) ==> d.baseUrl == c.baseUrl
    ensures d.defaultHeaders == c.defaultHeaders && d.exhausted == c.exhausted && d.resetAfter == c.resetAfter
  {
    if IsValidUrl(url) then c.(baseUrl := Some(url)) else c
  }

  // ---------------------------------------------------------------------
  // Executing a request
  // ---------------------------------------------------------------------

  /** The rate-limit headers of a reply. A header value is None when it is
      missing or does not parse; the reset delay is already floored to an
      `int`. */
  datatype RateHeaders = RateHeaders(limit: bool, remaining: Option<int32>, resetAfter: Option<int32>, bucket: Option<string>)

  /** The members of a reply's JSON body the error handler reads. */
  datatype ReplyFields = ReplyFields(code: Option<int32>, message: Option<string>, retryAfter: Option<int>, global: Option<bool>)

  /** What the JSON reader makes of a reply body. */
  datatype Body = Unreadable | Tree(fields: ReplyFields)

  /** A reply from the network. */
  datatype Response = Response(status: int, rate: RateHeaders, body: Body)

  /** How long an exhausted client waits, in milliseconds: `resetAfter + 1`
      is `int` arithmetic and wraps, the conversion to milliseconds is on
      `long` and does not. */
  function WaitMillis(resetAfter: int32): (ms: int)
    ensures ms % 1000 == 0
    ensures -1 <= resetAfter < 0x7FFF_FFFF ==> ms == (resetAfter + 1) * 1000
    ensures resetAfter == 0x7FFF_FFFF ==> ms < 0
  {
    Wrap32(resetAfter + 1) * 1000
  }

  /** The preparation step of `execute`: prefix the URL with a non-empty
      base URL and let default headers override same-named request headers.
      None when the base URL is null, where the Java code throws. */
  function Prepare(c: Client, r: Request): (p: Option<Request>)
    ensures p.Some? <==> c.baseUrl.Some?
    ensures p.Some? && c.baseUrl.value != "" ==> p.value.url == c.baseUrl.value + r.url
    ensures p.Some? && c.baseUrl.value == "" ==> p.value.url == r.url
    ensures p.Some? ==> p.value.headers.Keys == r.headers.Keys + c.defaultHeaders.Keys
    ensures p.Some? ==> forall k :: k in c.defaultHeaders ==> p.value.headers[k] == c.defaultHeaders[k]
    ensures p.Some? ==> forall k :: k in r.headers && k !in c.defaultHeaders ==> p.value.headers[k] == r.headers[k]
    ensures p.Some? ==> p.value.verb == r.verb && p.value.body == r.body
  {
    match c.baseUrl
    case None => None
    case Some(base) =>
      var url := if base != "" then base + r.url else r.url;
      Some(r.(url := url, headers := r.headers + c.defaultHeaders))
  }

  /** Preparing an already prepared request leaves its headers as they are... */
  lemma PrepareHeadersIdempotent(c: Client, r: Request)
    requires c.baseUrl.Some?
    ensures Prepare(c, Prepare(c, r).value).value.headers == Prepare(c, r).value.headers
  {
    var once := Prepare(c, r).value;
    var twice := Prepare(c, once).value;
    assert twice.headers.Keys == once.headers.Keys;
    assert forall k :: k in twice.headers ==> twice.headers[k] == once.headers[k];
  }

  /** ...but prefixes its URL a second time. */
  lemma PrepareTwicePrefixesTwice(c: Client, r: Request)
    requires c.baseUrl.Some? && c.baseUrl.value != ""
    ensures Prepare(c, Prepare(c, r).value).value.url == c.baseUrl.value + c.baseUrl.value + r.url
  {
  }

  /** The outcome of `executeAndReturn`. `Hung` is a call that never
      returns: an exhausted client whose wait comes to 0 milliseconds calls
      `wait(0)`, which waits for a notification nobody sends. Otherwise the
      client and the (mutated) request afterwards, the wait performed, the
      request handed to the network, and the reply; a None reply is the
      null the Java method returns after catching an exception. */
  datatype Exec =
    | Hung
    | Done(client: Client, request: Request, waited: Option<int>, sent: Option<Outgoing>, response: Option<Response>)

  /** The part of `executeAndReturn` after the gate. */
  function Dispatch(c: Client, r: Request, waited: Option<int>, reply: Option<Response>): (e: Exec)
    ensures e.Done? && e.client == c && e.waited == waited
    ensures e.sent.Some? <==> c.baseUrl.Some? && ToHttpRequest(Prepare(c, r).value).Some?
    ensures e.sent.Some? ==> e.sent == ToHttpRequest(e.request) && e.response == reply
    ensures e.sent.None? ==> e.response.None?
    ensures e.request == (if c.baseUrl.Some? then Prepare(c, r).value else r)
  {
    match Prepare(c, r)
    case None => Done(c, r, waited, None, None)
    case Some(p) =>
      match ToHttpRequest(p)
      case None => Done(c, p, waited, None, None)
      case Some(o) => Done(c, p, waited, Some(o), reply)
  }

  /** `executeAndReturn` (and `execute`, which returns the reply's body and
      has the same effect on the client and the request). */
  function Execute(c: Client, r: Request, reply: Option<Response>): (e: Exec)
    ensures !c.exhausted ==> e.Done? && e.client == c && e.waited.None?
    ensures c.exhausted ==> (e.Hung? <==> WaitMillis(c.resetAfter) == 0)
    ensures c.exhausted && WaitMillis(c.resetAfter) < 0 ==> e == Done(c, r, None, None, None)
    ensures c.exhausted && WaitMillis(c.resetAfter) > 0 ==>
      e.Done? && e.waited == Some(WaitMillis(c.resetAfter))
      && e.client == c.(exhausted := false, resetAfter := 0)
    ensures e.Done? && e.waited.Some? ==> e.waited.value > 0
    ensures e.Done? ==> e.client.baseUrl == c.baseUrl && e.client.defaultHeaders == c.defaultHeaders
    ensures e.Done? && e.response.Some? ==> e.response == reply && e.sent.Some?
  {
    if c.exhausted then
      var ms := WaitMillis(c.resetAfter);
      if ms < 0 then Done(c, r, None, None, None)
      else if ms == 0 then Hung
      else Dispatch(c.(exhausted := false, resetAfter := 0), r, Some(ms), reply)
    else
      Dispatch(c, r, None, reply)
  }

  /** A client that is not exhausted with a base URL sends the prepared
      request and hands back the reply. */
  lemma ExecuteSendsPrepared(c: Client, r: Request, reply: Option<Response>)
    requires !c.exhausted && c.baseUrl.Some?
    requires ToHttpRequest(Prepare(c, r).value).Some?
    ensures Execute(c, r, reply) == Done(c, Prepare(c, r).value, None, ToHttpRequest(Prepare(c, r).value), reply)
  {
  }

  /** After an exhausted client's wait the gate is open again: the next
      request goes out without waiting. */
  lemma ExecuteReopensGate(c: Client, r: Request, r2: Request, reply: Option<Response>, reply2: Option<Response>)
    requires c.exhausted && WaitMillis(c.resetAfter) > 0
    ensures Execute(c, r, reply).Done?
    ensures Execute(Execute(c, r, reply).client, r2, reply2).Done?
    ensures Execute(Execute(c, r, reply).client, r2, reply2).waited.None?
  {
  }

  /** Executing the same request object twice sends the base URL twice. */
  lemma ExecuteTwicePrefixesTwice(c: Client, r: Request, reply: Option<Response>, reply2: Option<Response>)
    requires !c.exhausted && c.baseUrl.Some? && c.baseUrl.value != ""
    ensures Execute(Execute(c, r, reply).client, Execute(c, r, reply).request, reply2).request.url
            == c.baseUrl.value + c.baseUrl.value + r.url
  {
  }
}

=== FILE: intents.dfy ===
/** The gateway intents (feature flags) and the integer the identify command
    carries for a list of them. */
module Intents {
  import opened Common

  /** The enum constants, in declaration order. */
  datatype Intent =
    | Guilds | GuildMembers | GuildModeration | GuildEmojisAndStickers
    | GuildIntegrations | GuildWebhooks | GuildInvites | GuildVoiceStates
    | GuildPresences | GuildMessages | GuildMessageReactions | GuildMessageTyping
    | DirectMessages | DirectMessageReactions | DirectMessageTyping
    | MessageContent | GuildScheduledEvents
    | AutoModerationConfiguration | AutoModerationExecution

  /** Position of the constant in the declaration (its `ordinal()`). */
  function Ordinal(i: Intent): (n: nat)
    ensures n < 19
  {
    match i
    case Guilds => 0 case GuildMembers => 1 case GuildModeration => 2
    case GuildEmojisAndStickers => 3 case GuildIntegrations => 4 case GuildWebhooks => 5
    case GuildInvites => 6 case GuildVoiceStates => 7 case GuildPresences => 8
    case GuildMessages => 9 case GuildMessageReactions => 10 case GuildMessageTyping => 11
    case DirectMessages => 12 case DirectMessageReactions => 13 case DirectMessageTyping => 14
    case MessageContent => 15 case GuildScheduledEvents => 16
    case AutoModerationConfiguration => 17 case AutoModerationExecution => 18
  }

  lemma OrdinalInjective(a: Intent, b: Intent)
    ensures Ordinal(a) == Ordinal(b) ==> a == b
  {
  }

  /** The bit each constant's code sets: bits 0 to 16, then 20 and 21. */
  function Bit(i: Intent): (k: nat)
    ensures k <= 16 || k == 20 || k == 21
  {
    var n := Ordinal(i);
    if n <= 16 then n else n + 3
  }

  function Pow2(k: nat): (p: nat)
    ensures p >= 1
  {
    if k == 0 then 1 else 2 * Pow2(k - 1)
  }

  lemma PowTable()
    ensures Pow2(0) == 1 && Pow2(1) == 2 && Pow2(2) == 4 && Pow2(3) == 8
    ensures Pow2(4) == 0x10 && Pow2(5) == 0x20 && Pow2(6) == 0x40 && Pow2(7) == 0x80
    ensures Pow2(8) == 0x100 && Pow2(9) == 0x200 && Pow2(10) == 0x400 && Pow2(11) == 0x800
    ensures Pow2(12) == 0x1000 && Pow2(13) == 0x2000 && Pow2(14) == 0x4000 && Pow2(15) == 0x8000
    ensures Pow2(16) == 0x1_0000 && Pow2(17) == 0x2_0000 && Pow2(18) == 0x4_0000
    ensures Pow2(19) == 0x8_0000 && Pow2(20) == 0x10_0000 && Pow2(21) == 0x20_0000
    ensures Pow2(22) == 0x40_0000
  {
    assert Pow2(4) == 0x10;
    assert Pow2(8) == 0x100;
    assert Pow2(12) == 0x1000;
    assert Pow2(16) == 0x1_0000;
    assert Pow2(20) == 0x10_0000;
  }

  /** `getCode()`: the constant's code (a `long` in the source), which is
      `1 << Bit(i)`. */
  function Code(i: Intent): (c: nat)
    ensures 0 < c < 0x40_0000
  {
    match i
    case Guilds => 0x1 case GuildMembers => 0x2 case GuildModeration => 0x4
    case GuildEmojisAndStickers => 0x8 case GuildIntegrations => 0x10
    case GuildWebhooks => 0x20 case GuildInvites => 0x40 case GuildVoiceStates => 0x80
    case GuildPresences => 0x100 case GuildMessages => 0x200
    case GuildMessageReactions => 0x400 case GuildMessageTyping => 0x800
    case DirectMessages => 0x1000 case DirectMessageReactions => 0x2000
    case DirectMessageTyping => 0x4000 case MessageContent => 0x8000
    case GuildScheduledEvents => 0x1_0000
    case AutoModerationConfiguration => 0x10_0000 case AutoModerationExecution => 0x20_0000
  }

  /** The code table is `1 << Bit(i)`. */
  lemma CodeIsPower(i: Intent)
    ensures Code(i) == Pow2(Bit(i))
  {
    PowTable();
  }

  lemma {:induction false} PowMonotone(j: nat, k: nat)
    requires j < k
    ensures Pow2(j) < Pow2(k)
  {
    if j < k - 1 {
      PowMonotone(j, k - 1);
    }
  }

  lemma BitInjective(a: Intent, b: Intent)
    ensures Bit(a) == Bit(b) ==> a == b
  {
    OrdinalInjective(a, b);
  }

  /** Distinct constants have disjoint codes; in particular all codes differ. */
  lemma CodesDisjoint(a: Intent, b: Intent)
    requires a != b
    ensures Code(a) != Code(b)
    ensures And(Code(a), Code(b)) == 0
  {
    BitInjective(a, b);
    CodeIsPower(a);
    CodeIsPower(b);
    var j, k := Bit(a), Bit(b);
    PowersDisjoint(j, k);
    PowersDiffer(j, k);
  }

  lemma PowersDiffer(j: nat, k: nat)
    requires j != k
    ensures Pow2(j) != Pow2(k)
  {
    if j < k {
      PowMonotone(j, k);
    } else {
      PowMonotone(k, j);
    }
  }

  /** Bits 17, 18 and 19 are no intent's code. */
  lemma UnusedBits(i: Intent)
    ensures Code(i) != Pow2(17) && Code(i) != Pow2(18) && Code(i) != Pow2(19)
  {
    CodeIsPower(i);
    PowTable();
  }

  /** The constants as declared. */
  const DECLARED: seq<Intent> :=
    [Guilds, GuildMembers, GuildModeration, GuildEmojisAndStickers,
     GuildIntegrations, GuildWebhooks, GuildInvites, GuildVoiceStates,
     GuildPresences, GuildMessages, GuildMessageReactions, GuildMessageTyping,
     DirectMessages, DirectMessageReactions, DirectMessageTyping,
     MessageContent, GuildScheduledEvents,
     AutoModerationConfiguration, AutoModerationExecution]

  /** `getAll()`: every constant, in declaration order. */
  function All(): (r: seq<Intent>)
    ensures |r| == 19
    ensures forall k :: 0 <= k < |r| ==> Ordinal(r[k]) == k
    ensures forall i: Intent :: i in r
  {
    var r := DECLARED;
    forall i: Intent
      ensures i in r
    {
      assert r[Ordinal(i)] == i;
    }
    r
  }

  /** The intents a bot must be granted explicitly. */
  predicate Privileged(i: Intent)
  {
    i == MessageContent || i == GuildMembers || i == GuildPresences
  }

  /** Order-preserving removal of the privileged intents. */
  function DropPrivileged(xs: seq<Intent>): (r: seq<Intent>)
    ensures forall i :: i in r <==> i in xs && !Privileged(i)
    ensures |r| <= |xs|
  {
    if |xs| == 0 then []
    else if Privileged(xs[0]) then DropPrivileged(xs[1..])
    else [xs[0]] + DropPrivileged(xs[1..])
  }

  /** The elements of `xs` appear in strictly increasing declaration order. */
  predicate InDeclarationOrder(xs: seq<Intent>)
  {
    forall a, b :: 0 <= a < b < |xs| ==> Ordinal(xs[a]) < Ordinal(xs[b])
  }

  lemma {:induction false} DropPrivilegedKeepsOrder(xs: seq<Intent>)
    requires InDeclarationOrder(xs)
    ensures InDeclarationOrder(DropPrivileged(xs))
  {
    if |xs| > 0 {
      assert InDeclarationOrder(xs[1..]) by {
        forall a, b | 0 <= a < b < |xs| - 1
          ensures Ordinal(xs[1..][a]) < Ordinal(xs[1..][b])
        {
          assert xs[1..][a] == xs[a + 1] && xs[1..][b] == xs[b + 1];
        }
      }
      DropPrivilegedKeepsOrder(xs[1..]);
      var rest := DropPrivileged(xs[1..]);
      if !Privileged(xs[0]) {
        forall k | 0 <= k < |rest|
          ensures Ordinal(xs[0]) < Ordinal(rest[k])
        {
          assert rest[k] in xs[1..];
          var j :| 0 <= j < |xs| - 1 && xs[1..][j] == rest[k];
          assert xs[j + 1] == rest[k];
        }
        var r := [xs[0]] + rest;
        forall a, b | 0 <= a < b < |r|
          ensures Ordinal(r[a]) < Ordinal(r[b])
        {
          if a > 0 {
            assert r[a] == rest[a - 1] && r[b] == rest[b - 1];
          } else {
            assert r[b] == rest[b - 1];
          }
        }
      }
    }
  }

  /** `getAllNonPrivileged()`: `getAll()` without the three privileged intents,
      order kept. */
  function AllNonPrivileged(): (r: seq<Intent>)
    ensures forall i :: i in r <==> !Privileged(i)
    ensures InDeclarationOrder(r)
    ensures |r| == 16
  {
    DropPrivilegedKeepsOrder(All());
    var r := DropPrivileged(All());
    var expected := NonPrivilegedInOrder();
    OrderedByMembers(r, expected);
    r
  }

  /** The sixteen non-privileged intents, written out. */
  function NonPrivilegedInOrder(): (r: seq<Intent>)
    ensures forall i :: i in r <==> !Privileged(i)
    ensures InDeclarationOrder(r)
    ensures |r| == 16
  {
    var r := [Guilds, GuildModeration, GuildEmojisAndStickers,
              GuildIntegrations, GuildWebhooks, GuildInvites, GuildVoiceStates,
              GuildMessages, GuildMessageReactions, GuildMessageTyping,
              DirectMessages, DirectMessageReactions, DirectMessageTyping,
              GuildScheduledEvents,
              AutoModerationConfiguration, AutoModerationExecution];
    assert forall k :: 0 <= k < |r| - 1 ==> Ordinal(r[k]) < Ordinal(r[k + 1]);
    StepwiseOrder(r);
    forall i: Intent | !Privileged(i)
      ensures i in r
    {
      var k := Ordinal(i);
      assert r[if k < 1 then k else if k < 8 then k - 1 else if k < 15 then k - 2 else k - 3] == i;
    }
    r
  }

  lemma {:induction false} StepwiseOrder(xs: seq<Intent>)
    requires forall k :: 0 <= k < |xs| - 1 ==> Ordinal(xs[k]) < Ordinal(xs[k + 1])
    ensures InDeclarationOrder(xs)
  {
    if |xs| > 1 {
      StepwiseOrder(xs[1..]);
      forall a, b | 0 <= a < b < |xs|
        ensures Ordinal(xs[a]) < Ordinal(xs[b])
      {
        if a > 0 {
          assert xs[a] == xs[1..][a - 1] && xs[b] == xs[1..][b - 1];
        } else if b > 1 {
          assert xs[1] == xs[1..][0] && xs[b] == xs[1..][b - 1];
        }
      }
    }
  }

  /** A list in declaration order is determined by the intents it holds. */
  lemma {:induction false} OrderedByMembers(a: seq<Intent>, b: seq<Intent>)
    requires InDeclarationOrder(a) && InDeclarationOrder(b)
    requires forall i :: i in a <==> i in b
    ensures a == b
  {
    if |a| > 0 {
      assert a[0] in b;
    }
    if |b| > 0 {
      assert b[0] in a;
    }
    if |a| > 0 {
      HeadIsFirst(a, b[0]);
      HeadIsFirst(b, a[0]);
      OrdinalInjective(a[0], b[0]);
      forall i
        ensures i in a[1..] <==> i in b[1..]
      {
        TailMembers(a, i);
        TailMembers(b, i);
      }
      OrderedByMembers(a[1..], b[1..]);
      assert a == [a[0]] + a[1..] && b == [b[0]] + b[1..];
    }
  }

  lemma HeadIsFirst(a: seq<Intent>, x: Intent)
    requires InDeclarationOrder(a) && x in a
    ensures Ordinal(a[0]) <= Ordinal(x)
  {
    var k :| 0 <= k < |a| && a[k] == x;
    assert k == 0 || Ordinal(a[0]) < Ordinal(a[k]);
  }

  lemma TailMembers(a: seq<Intent>, x: Intent)
    requires InDeclarationOrder(a) && |a| > 0
    ensures x in a[1..] <==> x in a && x != a[0]
  {
    if x in a[1..] {
      var k :| 0 <= k < |a| - 1 && a[1..][k] == x;
      assert Ordinal(a[0]) < Ordinal(a[k + 1]);
    }
    if x in a && x != a[0] {
      var k :| 0 <= k < |a| && a[k] == x;
      assert a[1..][k - 1] == x;
    }
  }

  /** The sum of the codes, as a mathematical integer. */
  function CodeSum(xs: seq<Intent>): nat
  {
    if |xs| == 0 then 0 else Code(xs[0]) + CodeSum(xs[1..])
  }

  /** The `intents` value identify sends: the codes added up in a Java `int`
      (`int += long` narrows back to 32 bits), so duplicates count twice and
      the total wraps modulo 2^32. */
  function IntentsField(xs: seq<Intent>): int32
  {
    Wrap32(CodeSum(xs))
  }

  /** Bitwise OR of the codes: the flag set the list stands for. */
  function CodeMask(xs: seq<Intent>): nat
  {
    if |xs| == 0 then 0 else Or(Code(xs[0]), CodeMask(xs[1..]))
  }

  predicate NoDuplicates(xs: seq<Intent>)
  {
    forall a, b :: 0 <= a < b < |xs| ==> xs[a] != xs[b]
  }

  /** Java's `|` on non-negative integers, bit by bit from the lowest. */
  function Or(a: nat, b: nat): nat
    decreases a + b
  {
    if a == 0 && b == 0 then 0 else 2 * Or(a / 2, b / 2) + (if a % 2 == 1 || b % 2 == 1 then 1 else 0)
  }

  /** Java's `&` on non-negative integers. */
  function And(a: nat, b: nat): nat
    decreases a + b
  {
    if a == 0 || b == 0 then 0 else 2 * And(a / 2, b / 2) + (if a % 2 == 1 && b % 2 == 1 then 1 else 0)
  }

  /** OR of disjoint bit patterns is their sum. */
  lemma {:induction false} OrOfDisjoint(a: nat, b: nat)
    requires And(a, b) == 0
    ensures Or(a, b) == a + b
    decreases a + b
  {
    if a != 0 || b != 0 {
      assert And(a / 2, b / 2) == 0 && !(a % 2 == 1 && b % 2 == 1) by {
        if a != 0 && b != 0 {
          assert And(a, b) == 2 * And(a / 2, b / 2) + (if a % 2 == 1 && b % 2 == 1 then 1 else 0);
        } else {
          ZeroAnd(a / 2, b / 2);
        }
      }
      OrOfDisjoint(a / 2, b / 2);
    }
  }

  lemma ZeroAnd(a: nat, b: nat)
    requires a == 0 || b == 0
    ensures And(a, b) == 0
  {
  }

  lemma {:induction false} AndOfOr(c: nat, d: nat, m: nat)
    requires And(c, d) == 0 && And(c, m) == 0
    ensures And(c, Or(d, m)) == 0
    decreases c + d + m
  {
    if c != 0 && (d != 0 || m != 0) {
      assert And(c / 2, d / 2) == 0 && !(c % 2 == 1 && d % 2 == 1) by {
        if d == 0 {
          ZeroAnd(c / 2, d / 2);
        }
      }
      assert And(c / 2, m / 2) == 0 && !(c % 2 == 1 && m % 2 == 1) by {
        if m == 0 {
          ZeroAnd(c / 2, m / 2);
        }
      }
      AndOfOr(c / 2, d / 2, m / 2);
      var o := Or(d, m);
      assert o / 2 == Or(d / 2, m / 2) && o % 2 == (if d % 2 == 1 || m % 2 == 1 then 1 else 0);
    }
  }

  lemma {:induction false} PowersDisjoint(j: nat, k: nat)
    requires j != k
    ensures And(Pow2(j), Pow2(k)) == 0
  {
    if j > 0 && k > 0 {
      PowersDisjoint(j - 1, k - 1);
      assert Pow2(j) / 2 == Pow2(j - 1) && Pow2(j) % 2 == 0;
    } else if j == 0 {
      assert Pow2(k) % 2 == 0 && Pow2(k) / 2 == Pow2(k - 1);
      ZeroAnd(0, Pow2(k - 1));
    } else {
      assert Pow2(j) % 2 == 0 && Pow2(j) / 2 == Pow2(j - 1);
      ZeroAnd(Pow2(j - 1), 0);
    }
  }

  lemma {:induction false} OrBelow(a: nat, b: nat, k: nat)
    requires a < Pow2(k) && b < Pow2(k)
    ensures Or(a, b) < Pow2(k)
    decreases k
  {
    if k > 0 && (a != 0 || b != 0) {
      OrBelow(a / 2, b / 2, k - 1);
    }
  }

  lemma {:induction false} MaskBelow(xs: seq<Intent>)
    ensures CodeMask(xs) < Pow2(22)
  {
    if |xs| > 0 {
      MaskBelow(xs[1..]);
      PowTable();
      OrBelow(Code(xs[0]), CodeMask(xs[1..]), 22);
    }
  }

  lemma {:induction false} MaskMissesAbsent(x: Intent, xs: seq<Intent>)
    requires x !in xs
    ensures And(Code(x), CodeMask(xs)) == 0
  {
    if |xs| > 0 {
      MaskMissesAbsent(x, xs[1..]);
      CodesDisjoint(x, xs[0]);
      AndOfOr(Code(x), Code(xs[0]), CodeMask(xs[1..]));
    } else {
      ZeroAnd(Code(x), 0);
    }
  }

  /** For a list without duplicates, adding the codes is the same as OR-ing
      them, and the result stays below 2^22 (so the Java `int` never wraps). */
  lemma {:induction false} SumIsMask(xs: seq<Intent>)
    requires NoDuplicates(xs)
    ensures CodeSum(xs) == CodeMask(xs)
    ensures CodeSum(xs) < Pow2(22)
  {
    if |xs| > 0 {
      var rest := xs[1..];
      assert NoDuplicates(rest) by {
        forall a, b | 0 <= a < b < |rest| ensures rest[a] != rest[b] {
          assert rest[a] == xs[a + 1] && rest[b] == xs[b + 1];
        }
      }
      assert xs[0] !in rest by {
        forall k | 0 <= k < |rest| ensures rest[k] != xs[0] {
          assert rest[k] == xs[k + 1];
        }
      }
      SumIsMask(rest);
      MaskMissesAbsent(xs[0], rest);
      OrOfDisjoint(Code(xs[0]), CodeMask(rest));
      MaskBelow(xs);
    }
  }

  /** Without duplicates the field is the flag set itself: non-negative and
      below 2^22, whatever the order of the list. */
  lemma IntentsFieldIsMask(xs: seq<Intent>)
    requires NoDuplicates(xs)
    ensures IntentsField(xs) == CodeMask(xs)
    ensures 0 <= IntentsField(xs) < 0x40_0000
  {
    SumIsMask(xs);
    PowTable();
  }

  /** Duplicates are counted twice: GUILDS listed twice reads as GUILD_MEMBERS. */
  lemma DuplicatesCountTwice()
    ensures IntentsField([Guilds, Guilds]) == 2 == IntentsField([GuildMembers])
  {
    assert [Guilds, Guilds][1..] == [Guilds];
    assert [Guilds][1..] == [];
    assert [GuildMembers][1..] == [];
  }

  /** Every intent enabled gives 0x31FFFF: bits 0 to 16, 20 and 21. */
  lemma AllIntentsField()
    ensures IntentsField(All()) == 0x31_FFFF
  {
    var a := DECLARED;
    SumFrom7();
    SumSuffix(a, 6);
    assert CodeSum(a[6..]) == 0x31FFC0;
    SumSuffix(a, 5);
    assert CodeSum(a[5..]) == 0x31FFE0;
    SumSuffix(a, 4);
    assert CodeSum(a[4..]) == 0x31FFF0;
    SumSuffix(a, 3);
    assert CodeSum(a[3..]) == 0x31FFF8;
    SumSuffix(a, 2);
    assert CodeSum(a[2..]) == 0x31FFFC;
    SumSuffix(a, 1);
    assert CodeSum(a[1..]) == 0x31FFFE;
    SumSuffix(a, 0);
    assert CodeSum(a[0..]) == 0x31FFFF;
    assert a[0..] == a;
  }

  lemma SumFrom7()
    ensures CodeSum(DECLARED[7..]) == 0x31FF80
  {
    var a := DECLARED;
    SumFrom13();
    SumSuffix(a, 12);
    assert CodeSum(a[12..]) == 0x31F000;
    SumSuffix(a, 11);
    assert CodeSum(a[11..]) == 0x31F800;
    SumSuffix(a, 10);
    assert CodeSum(a[10..]) == 0x31FC00;
    SumSuffix(a, 9);
    assert CodeSum(a[9..]) == 0x31FE00;
    SumSuffix(a, 8);
    assert CodeSum(a[8..]) == 0x31FF00;
    SumSuffix(a, 7);
    assert CodeSum(a[7..]) == 0x31FF80;
  }

  lemma SumFrom13()
    ensures CodeSum(DECLARED[13..]) == 0x31E000
  {
    var a := DECLARED;
    assert a[19..] == [];
    SumSuffix(a, 18);
    assert CodeSum(a[18..]) == 0x200000;
    SumSuffix(a, 17);
    assert CodeSum(a[17..]) == 0x300000;
    SumSuffix(a, 16);
    assert CodeSum(a[16..]) == 0x310000;
    SumSuffix(a, 15);
    assert CodeSum(a[15..]) == 0x318000;
    SumSuffix(a, 14);
    assert CodeSum(a[14..]) == 0x31C000;
    SumSuffix(a, 13);
    assert CodeSum(a[13..]) == 0x31E000;
  }

  lemma SumSuffix(a: seq<Intent>, k: nat)
    requires k < |a|
    ensures CodeSum(a[k..]) == Code(a[k]) + CodeSum(a[k + 1..])
  {
    assert a[k..][1..] == a[k + 1..];
  }
}

=== FILE: json.dfy ===
/** The part of a JSON document tree the client builds with its object mapper.
    Object members keep their insertion order, as the mapper's object nodes do. */
module Json {
  import opened Common

  datatype Json =
    | JNull
    | JBool(b: bool)
    | JInt(i: int)
    | JStr(s: string)
    | JArr(items: seq<Json>)
    | JObj(members: seq<Member>)

  datatype Member = Member(key: string, value: Json)

  /** The value stored under `key` in an object node, or None. */
  function Get(j: Json, key: string): Option<Json>
  {
    if j.JObj? then Find(j.members, key) else None
  }

  /** The value of the first member carrying `key`. */
  function Find(ms: seq<Member>, key: string): Option<Json>
  {
    if |ms| == 0 then None
    else if ms[0].key == key then Some(ms[0].value)
    else Find(ms[1..], key)
  }

  /** Lookup finds the first member carrying the key. */
  lemma {:induction false} FindFirst(ms: seq<Member>, k: nat, key: string)
    requires k < |ms| && ms[k].key == key
    requires forall j :: 0 <= j < k ==> ms[j].key != key
    ensures Find(ms, key) == Some(ms[k].value)
  {
    if k > 0 {
      FindFirst(ms[1..], k - 1, key);
    }
  }

  /** Lookup finds a key exactly when some member carries it. */
  lemma {:induction false} FindPresent(ms: seq<Member>, key: string)
    ensures Find(ms, key).Some? <==> key in Keys(ms)
  {
    if |ms| > 0 {
      FindPresent(ms[1..], key);
      assert Keys(ms) == [ms[0].key] + Keys(ms[1..]);
    }
  }

  /** The keys of an object's members, in insertion order. */
  function Keys(ms: seq<Member>): (r: seq<string>)
    ensures |r| == |ms|
    ensures forall i :: 0 <= i < |ms| ==> r[i] == ms[i].key
  {
    if |ms| == 0 then [] else [ms[0].key] + Keys(ms[1..])
  }

  /** The keys of two member lists written one after the other. */
  lemma {:induction false} KeysAppend(a: seq<Member>, b: seq<Member>)
    ensures Keys(a + b) == Keys(a) + Keys(b)
  {
    if |a| > 0 {
      KeysAppend(a[1..], b);
      assert (a + b)[1..] == a[1..] + b;
    } else {
      assert a + b == b;
    }
  }

  /** Lookup in two member lists written one after the other: the first
      list wins. */
  lemma {:induction false} FindAppend(a: seq<Member>, b: seq<Member>, key: string)
    ensures Find(a + b, key) == (if Find(a, key).Some? then Find(a, key) else Find(b, key))
  {
    if |a| > 0 {
      FindAppend(a[1..], b, key);
      assert (a + b)[0] == a[0] && (a + b)[1..] == a[1..] + b;
    } else {
      assert a + b == b;
    }
  }

  /** The gateway's outbound command envelope `{op, d}`. */
  function Envelope(op: int, d: Json): (r: Json)
    ensures Get(r, "op") == Some(JInt(op))
    ensures Get(r, "d") == Some(d)
    ensures r.JObj? && Keys(r.members) == ["op", "d"]
  {
    var ms := [Member("op", JInt(op)), Member("d", d)];
    assert Find(ms[1..], "d") == Some(d);
    JObj(ms)
  }

  /** Two object nodes hold the same members, whatever their order. */
  ghost predicate SameMembers(a: Json, b: Json)
  {
    && a.JObj? && b.JObj?
    && (forall k :: k in Keys(a.members) <==> k in Keys(b.members))
    && (forall k :: Get(a, k) == Get(b, k))
  }
}

=== FILE: payloads.dfy ===
/** The gateway commands the client sends, built as JSON trees: identify
    (op 2), resume (op 6), heartbeat (op 1) and presence update (op 3). */
module Payloads {
  import opened Common
  import opened Json
  import opened Intents
  import Activities
  import opened Presences
  import opened Config

  const OP_HEARTBEAT: int := 1
  const OP_IDENTIFY: int := 2
  const OP_PRESENCE_UPDATE: int := 3
  const OP_RESUME: int := 6

  /** The connection properties of identify. */
  function Properties(os: string): (j: Json)
    ensures j.JObj? && Keys(j.members) == ["os", "browser", "device"]
    ensures Get(j, "os") == Some(JStr(os))
    ensures Get(j, "browser") == Some(JStr("Discordium"))
    ensures Get(j, "device") == Some(JStr("Discordium"))
  {
    var ms := [Member("os", JStr(os)), Member("browser", JStr("Discordium")), Member("device", JStr("Discordium"))];
    assert Find(ms, "browser") == Some(JStr("Discordium")) by { FindFirst(ms, 1, "browser"); }
    assert Find(ms, "device") == Some(JStr("Discordium")) by { FindFirst(ms, 2, "device"); }
    JObj(ms)
  }

  /** The total shard count identify announces: 1 without sharding, else
      the configured count, where 0 means the gateway's recommendation. */
  function ShardTotal(cfg: ClientConfig): (n: int32)
    ensures !cfg.shardingEnabled ==> n == 1
    ensures cfg.shardingEnabled && cfg.shardCount == 0 ==> n == cfg.recommendedShards
    ensures cfg.shardingEnabled && cfg.shardCount != 0 ==> n == cfg.shardCount
  {
    if !cfg.shardingEnabled then 1
    else if cfg.shardCount == 0 then cfg.recommendedShards
    else cfg.shardCount
  }

  /** The presence block inside identify. It holds the same members as
      `Presence.toJson()` (see IdentifyPresenceMatches), written in a
      different order. */
  function IdentifyPresence(acts: seq<Activities.Activity>, status: Status): (j: Json)
    ensures j.JObj? && Keys(j.members) == ["activities", "status", "since", "afk"]
    ensures Get(j, "activities") == Some(JArr(ActivitiesJson(acts)))
    ensures Get(j, "status") == Some(JStr(StatusString(status)))
    ensures Get(j, "since") == Some(JNull)
    ensures Get(j, "afk") == Some(JBool(false))
  {
    var ms := [Member("activities", JArr(ActivitiesJson(acts))), Member("status", JStr(StatusString(status))),
               Member("since", JNull), Member("afk", JBool(false))];
    assert Find(ms, "status") == Some(JStr(StatusString(status))) by { FindFirst(ms, 1, "status"); }
    assert Find(ms, "since") == Some(JNull) by { FindFirst(ms, 2, "since"); }
    assert Find(ms, "afk") == Some(JBool(false)) by { FindFirst(ms, 3, "afk"); }
    JObj(ms)
  }

  /** Identify and presence updates describe a presence with the same
      members and values; only the member order differs. */
  lemma IdentifyPresenceMatches(acts: seq<Activities.Activity>, status: Status)
    ensures SameMembers(IdentifyPresence(acts, status), Presences.ToJson(Presence(acts, status)))
    ensures Keys(IdentifyPresence(acts, status).members) != Keys(Presences.ToJson(Presence(acts, status)).members)
  {
    var a, b := IdentifyPresence(acts, status), Presences.ToJson(Presence(acts, status));
    var ks := ["activities", "status", "since", "afk"];
    assert forall k :: k in Keys(a.members) <==> k in ks;
    assert forall k :: k in Keys(b.members) <==> k in ks;
    forall k
      ensures Get(a, k) == Get(b, k)
    {
      if k !in ks {
        FindPresent(a.members, k);
        FindPresent(b.members, k);
      }
    }
    assert Keys(a.members)[0] != Keys(b.members)[0];
  }

  /** An object with identify's six members, in identify's order. */
  function IdentifyObject(token: string, props: Json, compress: bool, shard: Json, intents: int, presence: Json): (j: Json)
    ensures j.JObj? && Keys(j.members) == ["token", "properties", "compress", "shard", "intents", "presence"]
    ensures Get(j, "token") == Some(JStr(token))
    ensures Get(j, "properties") == Some(props)
    ensures Get(j, "compress") == Some(JBool(compress))
    ensures Get(j, "shard") == Some(shard)
    ensures Get(j, "intents") == Some(JInt(intents))
    ensures Get(j, "presence") == Some(presence)
  {
    var front := [Member("token", JStr(token)), Member("properties", props), Member("compress", JBool(compress))];
    var back := [Member("shard", shard), Member("intents", JInt(intents)), Member("presence", presence)];
    var ms := front + back;
    assert Keys(front) == ["token", "properties", "compress"];
    assert Keys(back) == ["shard", "intents", "presence"];
    KeysAppend(front, back);
    assert Find(front, "properties") == Some(props) by { FindFirst(front, 1, "properties"); }
    assert Find(front, "compress") == Some(JBool(compress)) by { FindFirst(front, 2, "compress"); }
    assert Find(back, "intents") == Some(JInt(intents)) by { FindFirst(back, 1, "intents"); }
    assert Find(back, "presence") == Some(presence) by { FindFirst(back, 2, "presence"); }
    assert Keys(ms) == ["token", "properties", "compress", "shard", "intents", "presence"];
    FindPresent(front, "shard");
    FindPresent(front, "intents");
    FindPresent(front, "presence");
    FindAppend(front, back, "token");
    FindAppend(front, back, "properties");
    FindAppend(front, back, "compress");
    FindAppend(front, back, "shard");
    FindAppend(front, back, "intents");
    FindAppend(front, back, "presence");
    JObj(ms)
  }

  /** The `d` member of identify. */
  function IdentifyData(cfg: ClientConfig): (j: Json)
    ensures j.JObj? && Keys(j.members) == ["token", "properties", "compress", "shard", "intents", "presence"]
    ensures Get(j, "token") == Some(JStr(cfg.token))
    ensures Get(j, "properties") == Some(Properties(cfg.osName))
    ensures Get(j, "compress") == Some(JBool(cfg.compress))
    ensures Get(j, "shard") == Some(JArr([JInt(0), JInt(ShardTotal(cfg))]))
    ensures Get(j, "intents") == Some(JInt(IntentsField(cfg.intents)))
    ensures Get(j, "presence") == Some(IdentifyPresence(cfg.activities, cfg.status))
  {
    IdentifyObject(cfg.token, Properties(cfg.osName), cfg.compress, JArr([JInt(0), JInt(ShardTotal(cfg))]),
                   IntentsField(cfg.intents), IdentifyPresence(cfg.activities, cfg.status))
  }

  /** The identify command. */
  function Identify(cfg: ClientConfig): (j: Json)
    ensures Get(j, "op") == Some(JInt(OP_IDENTIFY))
    ensures Get(j, "d") == Some(IdentifyData(cfg))
  {
    Envelope(OP_IDENTIFY, IdentifyData(cfg))
  }

  /** For a duplicate-free intent list, identify announces exactly the
      bitwise OR of the intents' codes; the shard array is `[0, total]`. */
  lemma IdentifyIntentsAreMask(cfg: ClientConfig)
    requires NoDuplicates(cfg.intents)
    ensures Get(IdentifyData(cfg), "intents") == Some(JInt(CodeMask(cfg.intents)))
  {
    IntentsFieldIsMask(cfg.intents);
  }

  /** Without sharding, identify always claims shard 0 of 1, whatever the
      shard settings say. */
  lemma IdentifyUnshardedIsSingle(cfg: ClientConfig, cfg2: ClientConfig)
    requires !cfg.shardingEnabled && !cfg2.shardingEnabled
    ensures Get(IdentifyData(cfg), "shard") == Get(IdentifyData(cfg2), "shard") == Some(JArr([JInt(0), JInt(1)]))
  {
  }

  /** The `d` member of resume; a missing session id is written as null. */
  function ResumeData(token: string, sessionId: Option<string>, lastSeq: int32): (j: Json)
    ensures j.JObj? && Keys(j.members) == ["token", "session_id", "seq"]
    ensures Get(j, "token") == Some(JStr(token))
    ensures Get(j, "session_id") == Some(if sessionId.Some? then JStr(sessionId.value) else JNull)
    ensures Get(j, "seq") == Some(JInt(lastSeq))
  {
    var sid := if sessionId.Some? then JStr(sessionId.value) else JNull;
    var ms := [Member("token", JStr(token)), Member("session_id", sid), Member("seq", JInt(lastSeq))];
    assert Find(ms, "session_id") == Some(sid) by { FindFirst(ms, 1, "session_id"); }
    assert Find(ms, "seq") == Some(JInt(lastSeq)) by { FindFirst(ms, 2, "seq"); }
    JObj(ms)
  }

  /** The resume command. */
  function Resume(token: string, sessionId: Option<string>, lastSeq: int32): (j: Json)
    ensures Get(j, "op") == Some(JInt(OP_RESUME))
    ensures Get(j, "d") == Some(ResumeData(token, sessionId, lastSeq))
  {
    Envelope(OP_RESUME, ResumeData(token, sessionId, lastSeq))
  }

  /** A resume command determines the token, the session id (a missing one
      included) and the last sequence number it announces. */
  lemma ResumeInjective(token: string, sid: Option<string>, lastSeq: int32, token2: string, sid2: Option<string>, lastSeq2: int32)
    requires Resume(token, sid, lastSeq) == Resume(token2, sid2, lastSeq2)
    ensures token == token2 && sid == sid2 && lastSeq == lastSeq2
  {
    var d, d2 := ResumeData(token, sid, lastSeq), ResumeData(token2, sid2, lastSeq2);
    assert Get(Resume(token, sid, lastSeq), "d") == Some(d);
    assert Get(Resume(token2, sid2, lastSeq2), "d") == Some(d2);
    assert Get(d, "token") == Some(JStr(token)) && Get(d2, "token") == Some(JStr(token2));
    assert Get(d, "seq") == Some(JInt(lastSeq)) && Get(d2, "seq") == Some(JInt(lastSeq2));
    if sid.Some? && sid2.Some? {
      assert Get(d, "session_id") == Some(JStr(sid.value));
      assert Get(d2, "session_id") == Some(JStr(sid2.value));
    } else {
      assert Get(d, "session_id") == Get(d2, "session_id");
    }
  }

  /** The heartbeat command: `d` is null while no sequence number was seen
      (the last sequence is 0), and the last sequence otherwise. */
  function Heartbeat(lastSeq: int32): (j: Json)
    ensures Get(j, "op") == Some(JInt(OP_HEARTBEAT))
    ensures Get(j, "d") == Some(JNull) <==> lastSeq == 0
    ensures lastSeq != 0 ==> Get(j, "d") == Some(JInt(lastSeq))
  {
    Envelope(OP_HEARTBEAT, if lastSeq == 0 then JNull else JInt(lastSeq))
  }

  /** Different last sequences give different heartbeats. */
  lemma HeartbeatInjective(a: int32, b: int32)
    requires Heartbeat(a) == Heartbeat(b)
    ensures a == b
  {
    if a == 0 || b == 0 {
      assert Get(Heartbeat(a), "d") == Some(JNull) <==> Get(Heartbeat(b), "d") == Some(JNull);
    } else {
      assert Get(Heartbeat(a), "d") == Some(JInt(a));
      assert Get(Heartbeat(b), "d") == Some(JInt(b));
    }
  }

  /** The presence-update command carries `Presence.toJson()` unchanged. */
  function PresenceUpdate(p: Presence): (j: Json)
    ensures Get(j, "op") == Some(JInt(OP_PRESENCE_UPDATE))
    ensures Get(j, "d") == Some(Presences.ToJson(p))
  {
    Envelope(OP_PRESENCE_UPDATE, Presences.ToJson(p))
  }

  /** A presence update determines the presence it announces. */
  lemma PresenceUpdateInjective(p: Presence, q: Presence)
    requires PresenceUpdate(p) == PresenceUpdate(q)
    ensures p == q
  {
    assert Get(PresenceUpdate(p), "d") == Some(Presences.ToJson(p));
    assert Get(PresenceUpdate(q), "d") == Some(Presences.ToJson(q));
    Presences.RoundTrip(p);
    Presences.RoundTrip(q);
  }

  /** The four commands are told apart by their opcode. */
  lemma CommandsDistinct(cfg: ClientConfig, token: string, sid: Option<string>, s: int32, t: int32, p: Presence)
    ensures Identify(cfg) != Resume(token, sid, s)
    ensures Identify(cfg) != Heartbeat(t) && Resume(token, sid, s) != Heartbeat(t)
    ensures PresenceUpdate(p) != Identify(cfg) && PresenceUpdate(p) != Resume(token, sid, s)
    ensures PresenceUpdate(p) != Heartbeat(t)
  {
  }
}

=== FILE: presence.dfy ===
/** The bot's presence (online status plus activities) and its JSON block, as
    sent by presence updates. */
module Presences {
  import opened Common
  import opened Json
  import Activities

  /** The online statuses a bot can show. */
  datatype Status = Online | Offline | Invisible | Idle | Dnd

  /** The status string of the presence block; every status not matched
      earlier in the source's conditional chain becomes "dnd". */
  function StatusString(s: Status): (r: string)
    ensures r in ["online", "offline", "invisible", "idle", "dnd"]
  {
    if s == Online then "online"
    else if s == Offline then "offline"
    else if s == Invisible then "invisible"
    else if s == Idle then "idle"
    else "dnd"
  }

  /** The status a status string names: the inverse of StatusString. */
  function ParseStatus(r: string): (s: Option<Status>)
    ensures s.Some? ==> StatusString(s.value) == r
  {
    match r
    case "online" => Some(Online)
    case "offline" => Some(Offline)
    case "invisible" => Some(Invisible)
    case "idle" => Some(Idle)
    case "dnd" => Some(Dnd)
    case _ => None
  }

  lemma StatusRoundTrip(s: Status)
    ensures ParseStatus(StatusString(s)) == Some(s)
  {
  }

  datatype Presence = Presence(activities: seq<Activities.Activity>, status: Status)

  /** `new Presence()`: online, no activities. */
  function NewPresence(): (p: Presence)
    ensures p.status == Online && p.activities == []
  {
    Presence([], Online)
  }

  /** `addActivity`: appends at the end, nothing else changes. */
  function AddActivity(p: Presence, a: Activities.Activity): (q: Presence)
    ensures |q.activities| == |p.activities| + 1
    ensures q.activities[..|p.activities|] == p.activities
    ensures q.activities[|p.activities|] == a
    ensures q.status == p.status
  {
    p.(activities := p.activities + [a])
  }

  /** `setStatus`: only the status changes. */
  function SetStatus(p: Presence, s: Status): (q: Presence)
    ensures q.status == s && q.activities == p.activities
  {
    p.(status := s)
  }

  /** The activity array, one element per activity, in list order. */
  function ActivitiesJson(acts: seq<Activities.Activity>): (items: seq<Json>)
    ensures |items| == |acts|
    ensures forall k :: 0 <= k < |acts| ==> items[k] == Activities.ToJson(acts[k])
  {
    if |acts| == 0 then [] else [Activities.ToJson(acts[0])] + ActivitiesJson(acts[1..])
  }

  /** `toJson()`: `since` is always null and `afk` always false. */
  function ToJson(p: Presence): (j: Json)
    ensures j.JObj? && Keys(j.members) == ["since", "activities", "status", "afk"]
    ensures Get(j, "since") == Some(JNull)
    ensures Get(j, "afk") == Some(JBool(false))
    ensures Get(j, "status") == Some(JStr(StatusString(p.status)))
    ensures Get(j, "activities") == Some(JArr(ActivitiesJson(p.activities)))
  {
    Block(JArr(ActivitiesJson(p.activities)), StatusString(p.status))
  }

  /** The four members of the presence block, in the source's order. */
  function Block(acts: Json, status: string): (j: Json)
    ensures j.JObj? && Keys(j.members) == ["since", "activities", "status", "afk"]
    ensures Get(j, "since") == Some(JNull)
    ensures Get(j, "afk") == Some(JBool(false))
    ensures Get(j, "status") == Some(JStr(status))
    ensures Get(j, "activities") == Some(acts)
  {
    var ms := [Member("since", JNull), Member("activities", acts),
               Member("status", JStr(status)), Member("afk", JBool(false))];
    assert Find(ms, "activities") == Some(acts) by { FindFirst(ms, 1, "activities"); }
    assert Find(ms, "status") == Some(JStr(status)) by { FindFirst(ms, 2, "status"); }
    assert Find(ms, "afk") == Some(JBool(false)) by { FindFirst(ms, 3, "afk"); }
    JObj(ms)
  }

  /** Reads an activity array back. */
  function ActivitiesFromJson(items: seq<Json>): (r: Option<seq<Activities.Activity>>)
  {
    if |items| == 0 then Some([])
    else
      var head := Activities.FromJson(items[0]);
      var tail := ActivitiesFromJson(items[1..]);
      if head.Some? && tail.Some? then Some([head.value] + tail.value) else None
  }

  lemma {:induction false} ActivitiesRoundTrip(acts: seq<Activities.Activity>)
    ensures ActivitiesFromJson(ActivitiesJson(acts)) == Some(acts)
  {
    if |acts| > 0 {
      var head, tail := Activities.ToJson(acts[0]), ActivitiesJson(acts[1..]);
      assert ActivitiesJson(acts) == [head] + tail;
      ActivitiesRoundTrip(acts[1..]);
      Activities.RoundTrip(acts[0]);
      ReadCons(head, tail);
      assert acts == [acts[0]] + acts[1..];
    }
  }

  /** Reading an array reads its first element, then the rest. */
  lemma ReadCons(x: Json, rest: seq<Json>)
    ensures var h, t := Activities.FromJson(x), ActivitiesFromJson(rest);
      ActivitiesFromJson([x] + rest) == if h.Some? && t.Some? then Some([h.value] + t.value) else None
  {
    assert ([x] + rest)[0] == x;
    assert ([x] + rest)[1..] == rest;
  }

  /** Reads a presence block back (members in any order). */
  function FromJson(j: Json): (r: Option<Presence>)
  {
    match (Get(j, "activities"), Get(j, "status"))
    case (Some(JArr(items)), Some(JStr(s))) =>
      (match (ActivitiesFromJson(items), ParseStatus(s))
       case (Some(acts), Some(st)) => Some(Presence(acts, st))
       case _ => None)
    case _ => None
  }

  /** The presence block determines the presence it was built from. */
  lemma RoundTrip(p: Presence)
    ensures FromJson(ToJson(p)) == Some(p)
  {
    ActivitiesRoundTrip(p.activities);
    StatusRoundTrip(p.status);
  }
}

=== FILE: properties.dfy ===
/** Properties of the client and its websocket handler over single steps
    and whole runs. */
module SessionProperties {
  import opened Common
  import opened Json
  import opened Config
  import Payloads
  import opened Gateway
  import opened Handler

  /** A session id and a resume URL are only ever known together. */
  predicate Paired(s: Session)
  {
    s.sessionId.Some? <==> s.resumeUrl.Some?
  }

  /** `b` continues the executor history `a`: no executor disappears, none
      changes its period, and none that stopped runs again. */
  predicate Extends(a: seq<Executor>, b: seq<Executor>)
  {
    && |a| <= |b|
    && (forall k :: 0 <= k < |a| ==> b[k].period == a[k].period)
    && (forall k :: 0 <= k < |a| ==> b[k].live ==> a[k].live)
  }

  lemma ExtendsTrans(a: seq<Executor>, b: seq<Executor>, c: seq<Executor>)
    requires Extends(a, b) && Extends(b, c)
    ensures Extends(a, c)
  {
  }

  /** What every step keeps: the configuration, the pairing of session id
      and resume URL, and the executor history. */
  predicate Keeps(s: Session, t: Session)
  {
    t.cfg == s.cfg && (Paired(s) ==> Paired(t)) && Extends(s.heartbeats, t.heartbeats)
  }

  lemma KeepsTrans(s: Session, t: Session, u: Session)
    requires Keeps(s, t) && Keeps(t, u)
    ensures Keeps(s, u)
  {
    ExtendsTrans(s.heartbeats, t.heartbeats, u.heartbeats);
  }

  lemma StopKeeps(s: Session)
    ensures Keeps(s, Stop(s).state)
  {
  }

  lemma ReconnectKeeps(s: Session, failed: bool)
    ensures Keeps(s, Reconnect(s, failed).state)
  {
    if failed {
      StopKeeps(s);
      KeepsTrans(s, Stop(s).state, Start(Stop(s).state).state);
    }
  }

  lemma OpSwitchKeeps(s: Session, f: Frame)
    ensures Keeps(s, OpSwitch(s, f).state)
  {
    if f.op == 9 && !f.d.Missing? {
      if AsBoolean(f.d).value {
        ReconnectKeeps(s, false);
      } else if s.reconnecting {
        ReconnectKeeps(s, true);
      } else {
        StopKeeps(s);
      }
    }
  }

  lemma EventSwitchKeeps(s: Session, f: Frame)
    ensures Keeps(s, EventSwitch(s, f).state)
  {
  }

  lemma MessageKeeps(s: Session, now: int, frame: Option<Frame>)
    ensures Keeps(s, OnMessage(s, now, frame).state)
  {
    if s.socket == Live && frame.Some? {
      var s0 := s.(probeTime := now);
      var o := OpSwitch(s0, frame.value);
      OpSwitchKeeps(s0, frame.value);
      EventSwitchKeeps(o.state, frame.value);
      KeepsTrans(s0, o.state, EventSwitch(o.state, frame.value).state);
    }
  }

  /** One step keeps the configuration, keeps session id and resume URL
      paired, and only extends the executor history. */
  lemma StepInvariants(s: Session, e: Event)
    requires Paired(s)
    ensures var t := Step(s, e).state;
      && t.cfg == s.cfg
      && Paired(t)
      && Extends(s.heartbeats, t.heartbeats)
  {
    match e
    case Message(now, frame) => MessageKeeps(s, now, frame);
    case Close(code, reason, current) =>
      var s1 := if current && s.socket != NoSocket then s.(socket := Closed) else s;
      StopKeeps(s1);
    case CallStop => StopKeeps(s);
    case CallReconnect(failed) => ReconnectKeeps(s, failed);
    case _ =>
  }

  /** The same over any run. */
  lemma {:induction false} RunInvariants(s: Session, es: seq<Event>)
    requires Paired(s)
    ensures var t := Run(s, es).state;
      && t.cfg == s.cfg
      && Paired(t)
      && Extends(s.heartbeats, t.heartbeats)
    decreases |es|
  {
    if |es| > 0 {
      var o := Step(s, es[0]);
      StepInvariants(s, es[0]);
      RunInvariants(o.state, es[1..]);
      ExtendsTrans(s.heartbeats, o.state.heartbeats, Run(o.state, es[1..]).state.heartbeats);
    }
  }

  /** A run of one event is that event's step. */
  lemma RunSingle(s: Session, e: Event)
    ensures Run(s, [e]) == Step(s, e)
  {
    assert [e][1..] == [];
  }

  /** Whether `e` is an inbound dispatch (opcode 0) with a sequence number,
      received on an open socket. */
  predicate SeqDispatch(s: Session, e: Event)
  {
    e.Message? && s.socket == Live && e.frame.Some? && e.frame.value.op == 0 && e.frame.value.s.Some?
  }

  /** The last sequence number changes only through a dispatch carrying one,
      and such a dispatch always overwrites it, even with a smaller number. */
  lemma LastSeqOnlyFromDispatch(s: Session, e: Event)
    ensures Step(s, e).state.lastSeq != s.lastSeq ==> SeqDispatch(s, e)
    ensures SeqDispatch(s, e) ==> Step(s, e).state.lastSeq == e.frame.value.s.value
  {
    match e
    case Message(now, frame) =>
    case _ =>
  }

  /** The measured ping changes only when a pong arrives. */
  lemma PingOnlyFromPong(s: Session, e: Event)
    ensures Step(s, e).state.ping != s.ping ==> e.Pong?
  {
    match e
    case Message(now, frame) =>
    case _ =>
  }

  /** Reconnecting is switched on only by a reconnect without failure:
      asked for by the application, or by an invalid-session frame that
      allows resuming. */
  lemma ReconnectingOnlyFromResume(s: Session, e: Event)
    requires !s.reconnecting
    ensures Step(s, e).state.reconnecting ==>
      e == CallReconnect(false) || Calls(ReconnectCall(false)) in Step(s, e).effects
  {
    match e
    case Message(now, frame) =>
      if s.socket == Live && frame.Some? {
        var o := OpSwitch(s.(probeTime := now), frame.value);
        var r := OnMessage(s, now, frame);
        if r.state.reconnecting {
          assert o.state.reconnecting;
          assert r.effects[1] == o.effects[0];
        }
      }
    case _ =>
  }

  /** A hello with a positive period on a fresh (non-reconnecting) client:
      the heartbeat task starts first, then every listener hears of the
      hello in order, and identify goes out last. */
  lemma HelloOrder(s: Session, interval: int32)
    requires Period(interval) > 0 && !s.reconnecting
    ensures var es := Hello(s, interval).effects;
      && es == [StartHeartbeat(|s.heartbeats|, Period(interval))]
               + HelloNotices(s.cfg.listeners, interval)
               + [Send(Payloads.Identify(s.cfg))]
  {
  }

  /** The period is computed in `int` arithmetic. An interval above two
      seconds gives a period two seconds shorter; an interval from
      -2^31 + 2000 up to two seconds leaves the heartbeat unscheduled; and
      the intervals below that wrap round to a positive period, up to almost
      25 days for the most negative interval. */
  lemma PeriodWraps(i: int32)
    ensures i > 2000 ==> Period(i) == i - 2000
    ensures -0x8000_0000 + 2000 <= i <= 2000 ==> Period(i) <= 0
    ensures i < -0x8000_0000 + 2000 ==> Period(i) == i - 2000 + TWO_32 && Period(i) > 0
    ensures Period(i) > 0 <==> i > 2000 || i < -0x8000_0000 + 2000
  {
  }

  /** The frame of an invalid session, received on an open socket. */
  predicate InvalidSession(s: Session, now: int, f: Frame)
  {
    s.socket == Live && f.op == 9 && !f.d.Missing?
  }

  /** The client method an invalid session leads to. */
  function InvalidSessionCall(s: Session, d: Data): ClientMethod
    requires !d.Missing?
  {
    if AsBoolean(d).value then ReconnectCall(false)
    else if s.reconnecting then ReconnectCall(true)
    else StopCall
  }

  /** An invalid session enters exactly one client method, right after the
      ping: a resume when `d` reads as true, a full restart when it reads
      false during a reconnect, and a stop otherwise. */
  lemma InvalidSessionRoutes(s: Session, now: int, f: Frame)
    requires InvalidSession(s, now, f)
    ensures var r := OnMessage(s, now, Some(f));
      && |r.effects| >= 2 && r.effects[0] == SendPing
      && r.effects[1] == Calls(InvalidSessionCall(s, f.d))
      && NoCalls(r.effects[2..])
  {
    var s0 := s.(probeTime := now);
    var o := OpSwitch(s0, f);
    InvalidSessionSwitch(s0, f);
    var r := OnMessage(s, now, Some(f));
    if !o.raised {
      var e := EventSwitch(o.state, f);
      EventSwitchCallsNothing(o.state, f);
      assert r.effects == [SendPing] + o.effects + e.effects;
      assert r.effects[2..] == o.effects[1..] + e.effects;
    } else {
      assert r.effects == [SendPing] + o.effects;
      assert r.effects[2..] == o.effects[1..];
    }
  }

  lemma InvalidSessionSwitch(s: Session, f: Frame)
    requires f.op == 9 && !f.d.Missing?
    ensures var o := OpSwitch(s, f);
      |o.effects| > 0 && o.effects[0] == Calls(InvalidSessionCall(s, f.d)) && NoCalls(o.effects[1..])
  {
  }

  lemma EventSwitchCallsNothing(s: Session, f: Frame)
    ensures NoCalls(EventSwitch(s, f).effects)
  {
  }

  /** An invalid session without `d` throws before any client method. */
  lemma InvalidSessionWithoutData(s: Session, now: int, f: Frame)
    requires s.socket == Live && f.op == 9 && f.d.Missing?
    ensures OnMessage(s, now, Some(f)) == Outcome(s.(probeTime := now), [SendPing], true)
  {
  }

  /** A READY dispatch records both the session id and the resume URL and
      tells every listener, in order, with the announced API version. */
  lemma ReadySetsSession(s: Session, now: int, f: Frame)
    requires s.socket == Live && f.op == 0 && f.t == Some("READY")
    requires f.d.DObj? && f.d.fields.v.Some? && f.d.fields.sessionId.Some? && f.d.fields.resumeUrl.Some?
    ensures var r := OnMessage(s, now, Some(f)); var fs := f.d.fields;
      && !r.raised
      && r.state.sessionId == fs.sessionId && r.state.resumeUrl == fs.resumeUrl
      && r.state.reconnecting == s.reconnecting && r.state.lastSeq == (if f.s.Some? then f.s.value else s.lastSeq)
      && r.effects == [SendPing] + ReadyNotices(s.cfg.listeners, fs.v.value, fs.sessionId.value, fs.resumeUrl.value)
  {
    assert [SendPing] + [] == [SendPing];
  }

  /** A READY dispatch missing any of the three members throws and records
      neither value. */
  lemma ReadyIncompleteRaises(s: Session, now: int, f: Frame)
    requires s.socket == Live && f.op == 0 && f.t == Some("READY")
    requires !(f.d.DObj? && f.d.fields.v.Some? && f.d.fields.sessionId.Some? && f.d.fields.resumeUrl.Some?)
    ensures var r := OnMessage(s, now, Some(f));
      r.raised && r.state.sessionId == s.sessionId && r.state.resumeUrl == s.resumeUrl
  {
  }

  /** A RESUMED dispatch ends reconnecting. */
  lemma ResumedEndsReconnecting(s: Session, now: int, f: Frame)
    requires s.socket == Live && f.op == 0 && f.t == Some("RESUMED")
    ensures var r := OnMessage(s, now, Some(f));
      !r.raised && !r.state.reconnecting && r.effects == [SendPing]
  {
    assert [SendPing] + [] + [] == [SendPing];
  }

  /** Closing with the reason "Close" (what `stop()` itself uses) changes
      nothing but the socket. */
  lemma NormalCloseIsQuiet(s: Session, code: int, current: bool)
    ensures var r := OnClose(s, code, "Close", current);
      && r.effects == [] && !r.raised
      && r.state == s.(socket := r.state.socket)
      && (current && s.socket == Live ==> r.state.socket == Closed)
      && (!current ==> r.state == s)
  {
  }

  /** Any other close reason stops the client. When the closed socket is
      the current one, stop does not close it again; when it is a socket
      the client has already replaced, stop closes the client's new one. */
  lemma AbnormalCloseStops(s: Session, code: int, reason: string, current: bool)
    requires reason != "Close"
    ensures var r := OnClose(s, code, reason, current);
      && |r.effects| > 0 && r.effects[0] == Calls(StopCall)
      && (r.raised <==> s.socket == NoSocket || |s.keepAlive| == 0 || |s.heartbeats| == 0)
      && (current ==> CloseSocket(1001, "Close") !in r.effects)
      && (!current && (s.socket == Live || s.socket == Closing) ==> |r.effects| > 1 && r.effects[1] == CloseSocket(1001, "Close"))
      && (!r.raised ==> !r.state.heartbeats[|s.heartbeats| - 1].live && !r.state.keepAlive[|s.keepAlive| - 1])
  {
    var s1 := if current && s.socket != NoSocket then s.(socket := Closed) else s;
    var o := Stop(s1);
    if current {
      assert s1.socket != Live;
      assert forall k :: 0 <= k < |o.effects| ==> !o.effects[k].CloseSocket?;
      assert OnClose(s, code, reason, current).effects == [Calls(StopCall)] + o.effects;
    }
  }

  /** A pong measures the time since the message that sent the ping, as
      long as that message did not replace the handler. */
  lemma PingUsesLatestMessage(s: Session, t1: int, frame: Option<Frame>, t2: int)
    requires frame.None? || frame.value.op != 9
    requires -0x8000_0000 <= t2 - t1 < 0x8000_0000
    ensures Run(s, [Message(t1, frame), Pong(t2)]).state.ping == t2 - t1
  {
    var o := Step(s, Message(t1, frame));
    assert o.state.probeTime == t1;
    assert [Message(t1, frame), Pong(t2)][1..] == [Pong(t2)];
    RunSingle(o.state, Pong(t2));
  }

  /** A hello frame as the gateway sends it. */
  function HelloFrame(interval: int32): Frame
  {
    Frame(10, None, None, DObj(Fields(Some(interval), None, None, None)))
  }

  lemma HelloMessage(s: Session, now: int, interval: int32)
    requires s.socket == Live
    ensures OnMessage(s, now, Some(HelloFrame(interval))) == Outcome(Hello(s.(probeTime := now), interval).state,
      [SendPing] + Hello(s.(probeTime := now), interval).effects, false)
  {
    var h := Hello(s.(probeTime := now), interval);
    assert [SendPing] + h.effects + [] == [SendPing] + h.effects;
  }

  /** Each hello starts an executor and `stop()` shuts down only the latest:
      after two hellos and a stop, the first executor is still running. Its
      next firing finds the socket closing, so the send throws and the
      executor suppresses the task. */
  lemma StopLeavesEarlierExecutor(s: Session, t1: int, t2: int, i1: int32, i2: int32)
    requires s.socket == Live && |s.keepAlive| > 0
    requires Period(i1) > 0
    ensures var n := |s.heartbeats|;
      var a := OnMessage(s, t1, Some(HelloFrame(i1))).state;
      var b := OnMessage(a, t2, Some(HelloFrame(i2))).state;
      var r := Stop(b);
      && !r.raised && r.state.socket == Closing
      && |r.state.heartbeats| == n + 2
      && r.state.heartbeats[n].live && !r.state.heartbeats[n + 1].live
      && OnTick(r.state, n).effects == [] && !OnTick(r.state, n).state.heartbeats[n].live
  {
    var n := |s.heartbeats|;
    HelloMessage(s, t1, i1);
    var a := OnMessage(s, t1, Some(HelloFrame(i1))).state;
    assert a.heartbeats[n].live && a.heartbeats[n].period.Some?;
    HelloMessage(a, t2, i2);
    var b := OnMessage(a, t2, Some(HelloFrame(i2))).state;
    assert |b.heartbeats| == n + 2 && b.heartbeats[n] == a.heartbeats[n];
    var c := Stop(b).state;
    assert c.heartbeats[n] == c.heartbeats[..n + 1][n] == b.heartbeats[..n + 1][n];
    assert Fires(c, n);
  }

  /** A resume does not shut down the old heartbeat executor: after a hello,
      a reconnect by resume URL and a hello on the new socket, both
      executors' tasks run and both send heartbeats on the new socket. In
      the running program the old task may instead fire while the new
      socket is still connecting; that send throws and suppresses the task.
      Sends on a connecting socket count as succeeding here, so the lemma
      describes the run in which the old task first fires after the new
      socket is open. */
  lemma HeartbeatLeaks(s: Session, t1: int, t2: int, i1: int32, i2: int32)
    requires s.socket == Live && s.resumeUrl.Some?
    requires Period(i1) > 0 && Period(i2) > 0
    ensures var n := |s.heartbeats|;
      var a := OnMessage(s, t1, Some(HelloFrame(i1))).state;
      var b := Reconnect(a, false).state;
      var c := OnMessage(b, t2, Some(HelloFrame(i2))).state;
      && c.socket == Live && |c.heartbeats| == n + 2
      && OnTick(c, n).effects == [Send(Payloads.Heartbeat(c.lastSeq))]
      && OnTick(c, n + 1).effects == [Send(Payloads.Heartbeat(c.lastSeq))]
  {
    var n := |s.heartbeats|;
    HelloMessage(s, t1, i1);
    var a := OnMessage(s, t1, Some(HelloFrame(i1))).state;
    assert a.heartbeats[n].live && a.heartbeats[n].period.Some?;
    var b := Reconnect(a, false).state;
    HelloMessage(b, t2, i2);
    var c := OnMessage(b, t2, Some(HelloFrame(i2))).state;
    assert c.heartbeats[n] == b.heartbeats[n] == a.heartbeats[n];
    assert Fires(c, n) && Fires(c, n + 1);
  }

  /** A resume without a resume URL throws after `close()` has already run:
      the client keeps its old socket, now closing, so a presence update
      throws and the next heartbeat tick sends nothing and stops its task. */
  lemma FailedResumeSilencesSocket(s: Session, p: Presences.Presence, i: nat)
    requires s.socket == Live && s.resumeUrl.None?
    requires i < |s.heartbeats| && s.heartbeats[i].live && s.heartbeats[i].period.Some?
    ensures var r := Reconnect(s, false);
      && r.raised && r.effects == [CloseSocketDefault] && r.state.socket == Closing
      && UpdatePresence(r.state, p).raised
      && OnTick(r.state, i).effects == [] && !OnTick(r.state, i).state.heartbeats[i].live
  {
    var r := Reconnect(s, false);
    assert Fires(r.state, i);
  }

  /** On a fresh client, the first heartbeat after hello carries a null
      sequence number. */
  lemma FirstHeartbeatIsNull(cfg: ClientConfig, now: int, interval: int32)
    requires Period(interval) > 0
    ensures var a := Start(NewSession(cfg)).state;
      var b := OnOpen(a).state;
      var c := OnMessage(b, now, Some(HelloFrame(interval))).state;
      && OnTick(c, 0).effects == [Send(Payloads.Heartbeat(0))]
      && Get(Payloads.Heartbeat(0), "d") == Some(JNull)
  {
    var a := Start(NewSession(cfg)).state;
    var b := OnOpen(a).state;
    HelloMessage(b, now, interval);
    var c := OnMessage(b, now, Some(HelloFrame(interval))).state;
    assert c.lastSeq == 0 && c.socket == Live && Fires(c, 0);
  }

  /** A resumed session re-sends the session it knew: on open, a
      reconnecting client sends resume with its session id and last
      sequence number, and a non-reconnecting one sends nothing. */
  lemma OpenResumesIffReconnecting(s: Session)
    requires s.socket == Live
    ensures OnOpen(s).effects != [] <==> s.reconnecting
    ensures s.reconnecting ==>
      && |OnOpen(s).effects| == 1 && OnOpen(s).effects[0].Send?
      && var j := OnOpen(s).effects[0].payload;
      && Get(j, "op") == Some(JInt(Payloads.OP_RESUME))
      && Get(j, "d").Some?
      && Get(Get(j, "d").value, "session_id") == Some(if s.sessionId.Some? then JStr(s.sessionId.value) else JNull)
      && Get(Get(j, "d").value, "seq") == Some(JInt(s.lastSeq))
      && Get(Get(j, "d").value, "token") == Some(JStr(s.cfg.token))
  {
  }
}
